=== FILE: README.md ===
# Banking backend and chatbot helpers, modelled in Dafny

This project models the core logic of a small banking application. The
application has a Node.js back end and a Python chatbot.

- **Money transfer** (`transferMoney`): validates the request body, then, in one all-or-nothing database transaction:
  - looks up both accounts;
  - checks the sender's funds;
  - debits the sender and credits the receiver;
  - appends one transaction record.
- **Transaction history** (`getTransactionHistory`): the matching records, newest first, at most ten.
- **KYC submission**: the validation order and the Aadhaar mask `XXXX-XXXX-` plus the last four characters.
- **Request helpers**:
  - `getClientIP`: the client address behind proxies;
  - `getCustomerID`: the session's customer id, including the paths that throw.
- **`generateOTP`**: six draws from the digit table `1..9, 0`.
- **Video-KYC signalling server**: one remembered admin socket, with call, answer and ICE messages relayed between sockets.
- **Translation helpers** (`indicTrans.py`):
  - pre- and post-processing;
  - the direct and English-pivot translation paths;
  - the batch loop;
  - the dictionary-based fallback translator.
- **Retrieval helpers** (`rag_system.py`):
  - the banking-query classifier;
  - PDF and text-file chunking;
  - prompt assembly from the last four turns.
- **Chat server helpers** (`app.py`):
  - emoji removal for speech;
  - language defaults;
  - joining the Rasa reply;
  - routing a chat request.

Each module is built the same way:

- The state is immutable data. A `Bank` is a map from account number to balance plus the ledger of records.
- Every handler is a pure function from state and request to an outcome and a new state.
- Anything the code gets from outside is a parameter:
  - the database clock;
  - random draws;
  - the session store;
  - the neural translation models;
  - the language model;
  - the vector search;
  - the Rasa webhook.

The `Text` module defines, once, the string functions the code relies on:

- Python's `strip`, `split()`, `split(sep)`, `join` and `lower`;
- JavaScript's `trim`, `split`, `join` and `includes`.

It proves their laws, for example:

- `split` then `join` restores the input;
- `" ".join(s.split())` is idempotent;
- `split()` keeps every visible character.

## Behaviour of the code worth knowing

Unless a line below says otherwise, the model follows the code as written.

- **Self-transfer.** A transfer from an account to itself is accepted (Backend/controllers/transferMoney.js:14-57). Nothing compares the two account numbers. The balance ends unchanged and a record is still appended.
- **Amount 0.** The guard only tests the amount for truthiness (Backend/controllers/transferMoney.js:6-10). So an amount of 0 is refused as a missing field.
- **Negative amounts.** A negative amount is truthy, and `sender.balance < amount` is false for it (Backend/controllers/transferMoney.js:8, 27). So it passes every check and moves money from the receiver to the sender (`Transfer.NegativeAmountOverdrawsReceiver`).
- **History filter.** The query gives `OR` a single object holding both conditions, not a list of two (Backend/controllers/transactionHistory.js:12-17). What that selects depends on the ORM, so the match is a parameter.
- **Logging in the history handler.** Backend/controllers/transactionHistory.js:25-33 calls `logger`, which the file never imports (lines 1-3). As written, a successful query throws inside that call, and the `catch` block throws again at line 37. This is the one exception to following the code: `History.GetTransactionHistory` models the replies the handler evidently intends: the 400 at line 8 and the 200 at line 34.
- **KYC reply.**
  - The success reply in Backend/controllers/kycdocumentController.js:69-92 reads identifiers that are never declared. So, as written, even a valid submission ends in the `catch` reply after the database writes. `Kyc.Valid` therefore means "validation passed".
  - An invalid Aadhaar number reaches a call to `logger` (Backend/controllers/kycdocumentController.js:37-46), which the file never imports (lines 1-4). So it ends in the `catch` reply rather than the 400 at line 47. `Kyc.Validate` models this as `NotSubmitted`.

## Model

| member | source | states |
|---|---|---|
| Transfer.CheckFields | Backend/controllers/transferMoney.js:6-10 | A request passes exactly when amount, payment method, both account numbers and type are truthy. An amount of 0 is refused. The order carries the request's own fields. |
| Transfer.Commit | Backend/controllers/transferMoney.js:14-57 | The transaction succeeds if and only if both accounts exist and the sender's balance covers the amount. It aborts with "not found" or "insufficient funds" otherwise and then changes nothing. On success, the amount moves from sender to receiver, no other balance changes, and exactly one TRANSFER record is appended. A distinct sender stays solvent. |
| Transfer.Execute | Backend/controllers/transferMoney.js:5-58 | Missing fields are reported exactly when the guard fails. Only a successful transfer changes the state. The ledger only grows, by one record per success. The set of accounts never changes. |
| Transfer.Respond | Backend/controllers/transferMoney.js:8-10 | Status 200 if and only if the transfer happened, with the order echoed back. 400 for missing fields. One undifferentiated 500 for every failure inside the transaction. |
| Transfer.ExecuteConserves | Backend/controllers/transferMoney.js:31-41 | One request, whatever its outcome, leaves the sum of all balances unchanged, including a self-transfer. |
| Transfer.CommitConserves | Backend/controllers/transferMoney.js:31-41 | The debit and the credit cancel out in the bank's total. |
| Transfer.ExecuteReconciles | Backend/controllers/transferMoney.js:31-55 | Each account's new balance is its old balance plus the net effect of the records the request appended. |
| Transfer.Run | Backend/controllers/transferMoney.js:14 | Requests handled one after another as atomic transitions give one outcome per request, and the ledger never shrinks. |
| Transfer.RunConserves | Backend/controllers/transferMoney.js:14-57 | No sequence of requests creates or destroys money. |
| Transfer.RunAppendsOnly | Backend/controllers/transferMoney.js:44-55 | The ledger is append-only. Earlier records are never altered, and there is one new record per successful transfer. |
| Transfer.NetAppend | Backend/controllers/transferMoney.js:44-55 | The net effect of two runs of records on an account is the sum of their effects. |
| Transfer.RunReconciles | Backend/controllers/transferMoney.js:31-55 | After any sequence of requests, every account's balance equals its opening balance plus the net of the records appended since. The ledger fully explains the balances. |
| Transfer.NetOfExtension | Backend/controllers/transferMoney.js:44-55 | The net effect since a point of a ledger that extends another splits at the older ledger's end. |
| Transfer.RunKeepsBalancesNonNegative | Backend/controllers/transferMoney.js:27-29 | Non-negative balances stay non-negative across any sequence of requests, provided no request carries a negative amount. |
| Transfer.NegativeAmountOverdrawsReceiver | Backend/controllers/transferMoney.js:8 | An amount of -10 passes every check and leaves the receiver at -5. |
| Transfer.WorkedExample | Backend/controllers/transferMoney.js:23-57 | Three transfers in a row: a transfer that is covered, one that is not, and a self-transfer that is recorded but changes no balance. |
| Bank.TotalRemove | Backend/controllers/transferMoney.js:31-41 | The bank's total can be split off at any account. |
| Bank.TotalUpdate | Backend/controllers/transferMoney.js:31-41 | Changing one balance changes the bank's total by exactly that change. |
| History.Matching | Backend/controllers/transactionHistory.js:12-17 | The records the filter accepts and no others. Each accepted record appears exactly as often as in the ledger. |
| History.Insert | Backend/controllers/transactionHistory.js:22 | Inserting a record into a newest-first list keeps it newest-first and adds exactly that record. |
| History.ConsNewestFirst | Backend/controllers/transactionHistory.js:22 | A record no older than the head of a newest-first list can go in front of it. |
| History.SortNewestFirst | Backend/controllers/transactionHistory.js:22 | The result is a permutation of the input with timestamps in descending order. |
| History.DroppedAreOlder | Backend/controllers/transactionHistory.js:22-23 | Records cut off by the page limit are no newer than the last record shown. |
| History.GetTransactionHistory | Backend/controllers/transactionHistory.js:5-24 | 400 without a truthy account number. Otherwise a page holds at most ten matching records, newest first, drawn from the ledger. It holds all of them when there are at most ten, and exactly ten otherwise. Every record left out is no newer than the last record shown. |
| History.PageFacts | Backend/controllers/transactionHistory.js:22-23 | The first page of the newest-first order is bounded, ordered and drawn from the matches, and it leaves out only older records. |
| History.LongPage | Backend/controllers/transactionHistory.js:23 | When there are more than ten matches, the first ten are ordered and every dropped record is older. |
| UserInfo.FirstField | Backend/utils/userInfo.js:7 | The text before the first comma: a prefix of the header with no comma in it, ending at a comma or at the end. |
| UserInfo.GetClientIP | Backend/utils/userInfo.js:3-10 | With a truthy `x-forwarded-for`, its first entry trimmed, which holds no comma and has no surrounding white space. Otherwise the socket's remote address when truthy, else the request's `ip`. |
| UserInfo.GetCustomerID | Backend/utils/userInfo.js:11-24 | Throws without cookies. With a session cookie, it returns the session store's customer id, or throws when the store has no user. A body `customer_ID` without a session throws at the misspelt `req.bod`. Otherwise it returns null. An id is only ever returned from the session store. |
| Kyc.LastFour | Backend/controllers/kycdocumentController.js:70 | `slice(-4)`: the last four characters, or the whole string when shorter. |
| Kyc.MaskAadhaar | Backend/controllers/kycdocumentController.js:70 | A mask exists if and only if the number is truthy. It is `XXXX-XXXX-` followed by the number's last four characters. For a valid number it is 14 characters, only the last four of which are digits. |
| Kyc.Validate | Backend/controllers/kycdocumentController.js:16-48 | Missing documents, or a customer lookup that throws, end in the catch-all reply. The PAN refusal happens if and only if the PAN is falsy or blank, and it takes precedence. Validation passes if and only if the PAN is present and any Aadhaar number is twelve ASCII digits. It then carries the mask. |
| Kyc.AddressChecksNeverFire | Backend/controllers/kycdocumentController.js:9-34 | The address checks compare a boolean with a string and never fire. With a valid PAN, the only remaining refusal is a bad Aadhaar number. |
| Kyc.MaskExamples | Backend/controllers/kycdocumentController.js:70 | Worked masks for a twelve-digit number, a two-character number and an empty one. |
| Kyc.ValidateExamples | Backend/controllers/kycdocumentController.js:26-48 | A four-digit Aadhaar number ends in the catch-all reply. A blank PAN is refused first. |
| Otp.DigitOf | Backend/utils/otpFunctions.js:13-16 | A draw yields an ASCII digit, and it is `0` exactly for the last table index. |
| Otp.CodeOf | Backend/utils/otpFunctions.js:15-16 | Character `i` of the code is the digit of draw `i`. |
| Otp.GenerateOTP | Backend/utils/otpFunctions.js:12-19 | Six ASCII digits, each the table entry at the corresponding draw. |
| Otp.IndexOf | Backend/utils/otpFunctions.js:13 | The inverse of the table: the index whose digit is the given character. |
| Otp.TableIsOneToOne | Backend/utils/otpFunctions.js:13 | Distinct indices give distinct digits. |
| Otp.EveryCodeReachable | Backend/utils/otpFunctions.js:12-19 | Every six-digit code, including those with a leading zero, comes from some draws. |
| Signalling.Handle | server/server.js:25-55 | Registration sets the admin. A disconnect clears it only when the admin is the socket that left. A call goes to the admin when there is one, and otherwise a no-admin message goes back to the caller. Answers and ICE candidates go to their addressee. Sent messages are never retracted. |
| Signalling.AdminIsLastRegistrant | server/server.js:15-28 | After any sequence of events, the admin is socket `s` if and only if `s` was the last to register and has not disconnected since. |
| Signalling.AdminEvents | server/server.js:25-55 | Exactly the registration and disconnect events. |
| Signalling.AdminEventsAppend | server/server.js:25-55 | Filtering works piece by piece: the events of two runs filtered are the filtered runs put together. So the kept events stay in their original order. |
| Signalling.RelaysKeepAdmin | server/server.js:31-47 | Calls, answers and ICE relays never change who the admin is. |
| Signalling.CallScenario | server/server.js:25-55 | A call reaches a registered admin, and after the admin leaves, the next caller hears that there is no admin. |
| Translation.DirectionOf | bank_chatbot_project/indicTrans.py:97-105 | English to Indic, Indic to English, or pivot, each given exactly by which side is English. |
| Translation.TruncatedNormalised | bank_chatbot_project/indicTrans.py:211-212 | Cutting normalised text and appending "..." keeps it normalised. |
| Translation.Preprocess | bank_chatbot_project/indicTrans.py:201-214 | The output is white-space normalised and at most 1003 characters long. It is the normalised text, cut to 1000 characters plus "..." when longer. |
| Translation.StripPrefixes | bank_chatbot_project/indicTrans.py:219-222 | Removing the echoed prefixes never lengthens the text. A text with none of them is unchanged. |
| Translation.SkipUnmatched | bank_chatbot_project/indicTrans.py:220-221 | Prefixes that the text does not start with are passed over without effect. |
| Translation.PrefixesExclusive | bank_chatbot_project/indicTrans.py:219 | No text starts with two of the four prefixes, because their first letters differ. |
| Translation.PrefixRemovedInOrder | bank_chatbot_project/indicTrans.py:219-222 | Output that starts with the `i`-th prefix loses exactly that prefix, and the rest is stripped. Only the prefixes after it in the list are still looked for. |
| Translation.PostprocessRemovesPrefix | bank_chatbot_project/indicTrans.py:216-227 | Output that echoes one prefix becomes its remainder, stripped and normalised, when the remainder starts with no later prefix. |
| Translation.DropPrefix | bank_chatbot_project/indicTrans.py:221-222 | A matching prefix is removed, strictly shortening the text. What is left is stripped and has the same visible characters as the text after the prefix. A non-matching prefix changes nothing. |
| Translation.Postprocess | bank_chatbot_project/indicTrans.py:216-227 | The output is normalised. For model output without an echoed prefix, it is exactly its normalised form. |
| Translation.DirectTranslate | bank_chatbot_project/indicTrans.py:143-184 | The model receives the text tagged with the source code for Indic to English, and with the target code otherwise. A failing model gives the input back. A working one gives exactly the post-processed model output. |
| Translation.PivotTranslate | bank_chatbot_project/indicTrans.py:186-199 | Going through English keeps normalised input normalised. |
| Translation.Translate | bank_chatbot_project/indicTrans.py:107-141 | Same-language text comes back untouched. Any translation between different languages is normalised, whatever the models do. |
| Translation.Dispatch | bank_chatbot_project/indicTrans.py:130-137 | The model path keeps normalised text normalised. |
| Translation.FailingModelsKeepText | bank_chatbot_project/indicTrans.py:182-199 | With every model call failing, both the direct and the pivot path return their input. |
| Translation.FailingModelsGivePreprocessed | bank_chatbot_project/indicTrans.py:107-141 | With every model call failing, a translation between different languages is the preprocessed input. |
| Translation.MapTexts | bank_chatbot_project/indicTrans.py:229-237 | One result per text, in order. |
| Translation.BatchTranslate | bank_chatbot_project/indicTrans.py:229-237 | Result `i` is the translation of text `i`. |
| Translation.Lookup | bank_chatbot_project/indicTrans.py:352-364 | Finds a key if and only if some entry has it, and returns the value of the first such entry. |
| Translation.Invert | bank_chatbot_project/indicTrans.py:343-345 | Every entry swapped, last entry first. |
| Translation.InvertLastWins | bank_chatbot_project/indicTrans.py:343-345 | In the reversed dictionary, a value is found if and only if some entry has it. It maps to the key of the last entry holding it, as the dict comprehension overwrites. |
| Translation.InvertRoundTrip | bank_chatbot_project/indicTrans.py:338-349 | With distinct values, translating a word and then translating it back returns the word. |
| Translation.TablesRoundTrip | bank_chatbot_project/indicTrans.py:257-349 | For every table in the code, every English term survives a round trip through the reverse direction. |
| Translation.HindiDistinct | bank_chatbot_project/indicTrans.py:257-318 | No two Hindi entries share a translation. |
| Translation.MarathiDistinct | bank_chatbot_project/indicTrans.py:257-318 | No two Marathi entries share a translation. |
| Translation.GujaratiDistinct | bank_chatbot_project/indicTrans.py:257-318 | No two Gujarati entries share a translation. |
| Translation.DistinctByEnds | bank_chatbot_project/indicTrans.py:257-318 | Values told apart by their first and last characters are distinct. |
| Translation.TranslateWords | bank_chatbot_project/indicTrans.py:352-364 | Each word becomes the translation of its punctuation-stripped form when that form is a key, and stays as it is otherwise. |
| Translation.FallbackTranslate | bank_chatbot_project/indicTrans.py:320-368 | The same language after shortening leaves the text alone, and so does a pair without a table. The forward table, or else the reversed one, translates the lowercased words, which are joined by single spaces. |
| Translation.ThankYouNeverMatches | bank_chatbot_project/indicTrans.py:352-358 | The two-word key "thank you" can never match a split word. |
| Translation.NoSpaceInInfix | bank_chatbot_project/indicTrans.py:352-358 | Part of a word contains no white space. |
| Rag.AnyKeyword | bank_chatbot_project/rag_system.py:238 | True if and only if some keyword occurs in the text. |
| Rag.IsBankingQuery | bank_chatbot_project/rag_system.py:228-238 | True if and only if one of the 23 keywords is a substring of the lowercased query. |
| Rag.BankingQueryIgnoresCase | bank_chatbot_project/rag_system.py:237 | The classifier gives the same answer for a query and its lowercased form. |
| Rag.KeepLonger | bank_chatbot_project/rag_system.py:47-51 | Kept chunks are longer than the minimum, and there are no more of them than pieces. A single piece gives its cleaned form exactly when that is long enough, and nothing otherwise. |
| Rag.KeepLongerAppend | bank_chatbot_project/rag_system.py:47-51 | Keeping distributes over concatenation, so chunks come in piece order with duplicates kept. |
| Rag.KeptComeFromPieces | bank_chatbot_project/rag_system.py:47-51 | Every kept chunk is the cleaned form of some piece. |
| Rag.LongPiecesKept | bank_chatbot_project/rag_system.py:47-51 | Every piece whose cleaned form is long enough is kept. |
| Rag.CleanChunks | bank_chatbot_project/rag_system.py:44-51 | Chunks are stripped and contain no separator. |
| Rag.Paragraphs | bank_chatbot_project/rag_system.py:44-51 | Exactly the kept, stripped blank-line pieces, in order (through KeepLonger and KeepLongerAppend). Chunks are stripped, longer than 50 characters and free of blank lines. Every long enough paragraph is kept. |
| Rag.FaqChunks | bank_chatbot_project/rag_system.py:67-69 | Exactly the non-blank, stripped pieces between "Q:" markers, in order (through KeepLonger and KeepLongerAppend). Chunks are non-empty, stripped and free of "Q:". Every non-blank piece is kept. |
| Rag.TextChunks | bank_chatbot_project/rag_system.py:67-74 | FAQ chunking when "Q:" or "Question:" occurs, paragraph chunking otherwise. |
| Rag.QuestionMarkersAreNotSplit | bank_chatbot_project/rag_system.py:69-71 | Content marked only with "Question:" becomes one single chunk: the whole text, stripped. |
| Rag.NotBlank | bank_chatbot_project/rag_system.py:69-71 | Text containing a needle that starts with a visible character is not blank. |
| Rag.LoadPdf | bank_chatbot_project/rag_system.py:29-57 | The documents are extended by the paragraph chunks of the page-marked text, and are unchanged when the file cannot be read. |
| Rag.LoadText | bank_chatbot_project/rag_system.py:59-78 | The documents are extended by the text's chunks, and are unchanged when the file cannot be read. |
| Rag.ContextOf | bank_chatbot_project/rag_system.py:180-184 | A fixed note when nothing was found, otherwise the passages joined by blank lines. |
| Rag.RecentTurns | bank_chatbot_project/rag_system.py:187-188 | The last four turns, or all of them when there are fewer. |
| Rag.GenerateResponse | bank_chatbot_project/rag_system.py:174-226 | The model's answer stripped, or the apology when the model raises. |
| Rag.OnlyRecentTurnsMatter | bank_chatbot_project/rag_system.py:186-192 | Histories that end in the same four turns give the same answer. |
| Rag.OlderTurnsDropped | bank_chatbot_project/rag_system.py:188 | Turns before the last four do not change which turns are recent. |
| ChatServer.EmojiPatternSpan | bank_chatbot_project/app.py:53-72 | The overlapping ranges amount to four single characters and everything from U+24C2 upward. |
| ChatServer.DropEmojis | bank_chatbot_project/app.py:75 | No character of the class remains and nothing else is added. Every other character is kept exactly as often as it occurs. Text without the class is unchanged. |
| ChatServer.DropEmojisAppend | bank_chatbot_project/app.py:75 | Removal works piece by piece: removing from two texts put together gives the two results put together. So the kept characters stay in input order. |
| ChatServer.Collapse | bank_chatbot_project/app.py:78 | Every white-space character left is a single plain space followed by a visible character or by the end. Nothing else is added. Emptiness and a leading space are preserved. |
| ChatServer.CollapseLayout | bank_chatbot_project/app.py:78 | `re.sub(r'\s+', ' ', s)` is the words of `s.split()` joined by single spaces. One more space stands in front when `s` starts with white space, and one behind when white space follows the last word. |
| ChatServer.CollapseThenStrip | bank_chatbot_project/app.py:78 | `re.sub(r'\s+', ' ', s).strip()` equals `" ".join(s.split())`, since both use the same white space. |
| ChatServer.VisibleOfCollapse | bank_chatbot_project/app.py:78 | Collapsing keeps every visible character, in order. |
| ChatServer.StrippedCollapseNormalised | bank_chatbot_project/app.py:78 | A collapsed text, once stripped, is normalised. |
| ChatServer.RemoveEmojis | bank_chatbot_project/app.py:50-80 | The output is `" ".join(d.split())`, where `d` is the text with the class removed. So it is normalised and contains no character of the class. |
| ChatServer.RemoveEmojisKeepsText | bank_chatbot_project/app.py:50-80 | Exactly the visible characters outside the class survive, in order. |
| ChatServer.DetectLanguage | bank_chatbot_project/app.py:90-96 | A supported language is kept, and anything else, a detector error included, becomes "en". |
| ChatServer.FallbackIsClean | bank_chatbot_project/app.py:141-142 | The fallback phrase is normalised and free of the class. |
| ChatServer.SpeechInputFor | bank_chatbot_project/app.py:127-144 | The speech text is never empty, is normalised and contains no emoji. It is the cleaned text whenever anything is left, and "Response received" when nothing is. The language is always supported: a supported request language is kept, and any other becomes "en". |
| ChatServer.TextsOf | bank_chatbot_project/app.py:223-226 | The texts of exactly the parts that have one. A single part gives its text, or nothing when it has none. |
| ChatServer.TextsOfAppend | bank_chatbot_project/app.py:223-226 | Texts are collected in part order: the texts of two runs of parts are those of the first run followed by those of the second. |
| ChatServer.RasaText | bank_chatbot_project/app.py:214-231 | A non-200 status is the "unreachable" outcome, and only a non-200 status is. A 200 with a null or empty list gives the apology. Otherwise the part texts are joined by blank lines. |
| ChatServer.RasaTextRecoverable | bank_chatbot_project/app.py:223-228 | Suppose some part has a text, and no text holds a blank line or ends in a line break. Then splitting the bot text on blank lines gives back exactly the texts of the parts, in order. |
| Text.SplitOfJoin | bank_chatbot_project/app.py:228 | Joining texts with a doubled character and splitting on it gives the texts back, when no text holds the doubled character or ends in the character. |
| ChatServer.RouteChat | bank_chatbot_project/app.py:177-200 | 400 if and only if message, user id or conversation id is falsy. Retrieval if and only if it is loaded and the message is a banking query. Rasa otherwise. The route carries the request's fields, with language defaulting to "en". |
| ChatServer.NoRagMeansRasa | bank_chatbot_project/app.py:195-200 | Without the retrieval system, every complete request goes to Rasa. |
| Text.Strip | bank_chatbot_project/indicTrans.py:207 | Neither end of the result is in the class. The result is empty if and only if the whole input is in the class. |
| Text.StripIsInfix | bank_chatbot_project/rag_system.py:48 | The strip is the infix that starts after the leading run. |
| Text.StripKeepsAll | bank_chatbot_project/rag_system.py:48 | Every property that holds for all characters of the input holds for all characters of its strip. |
| Text.Words | bank_chatbot_project/indicTrans.py:204 | `split()` produces non-empty words without white space. |
| Text.Normalise | bank_chatbot_project/indicTrans.py:204 | `" ".join(s.split())` is normalised: single spaces between words, none at either end. |
| Text.NormaliseIdempotent | bank_chatbot_project/indicTrans.py:204-226 | Normalising twice, as pre- and post-processing do, is normalising once. |
| Text.WordsKeepVisibleText | bank_chatbot_project/indicTrans.py:204 | The words of `split()`, concatenated, are exactly the visible characters of the input. |
| Text.Lower | bank_chatbot_project/rag_system.py:237 | Same length, each character lowered. |
| Text.Split | bank_chatbot_project/rag_system.py:44 | At least one piece, and no piece contains the separator. |
| Text.SplitJoin | bank_chatbot_project/rag_system.py:44 | Joining the pieces of a split with the separator restores the input. |
| Text.FindFrom | Backend/utils/userInfo.js:7 | The first occurrence of the separator at or after a position: nothing earlier matches. |

## Left out

- The databases: Prisma behind the Node.js back end, and PostgreSQL, which the chat server reaches through psycopg2 (bank_chatbot_project/app.py:5, 29-38). Each handler is a pure state transition. Concurrency between requests is not modelled, and the database transaction is one atomic step. Because the ledger query is pure and cannot fail, the history handler's 500 "Internal server error." for a failing query (Backend/controllers/transactionHistory.js:35-44) is not modelled.
- The audit logging (`logger`, `console.log`, `print`): it has no effect on state. The history handler's call to the `logger` it never imports throws, and that throw is left out too (see above). The KYC handler's throwing call is modelled, as `NotSubmitted`.
- The KYC database writes (lines 49-67 of the KYC controller), the uploaded files, and the success reply, which reads undeclared names. `Kyc.Validate` ends at "validation passed".
- The handler's `component` flag, which only changes the shape of the KYC reply.
- Timestamps, random draws, the session store, the neural models, language detection, speech recognition, gTTS, the language model, the FAISS search with its cutoff, the Rasa webhook, Twilio and nodemailer: these are inputs or parameters.
- Transfer.Request: amounts are integers. A string, fractional or NaN amount, and Prisma's decimal arithmetic, are not modelled.
- History.SortNewestFirst: records with equal timestamps come in one fixed order, where the database may return any.
- Text.Lower: only the ASCII letters are lowered, where Python's `lower()` covers all of Unicode. The keywords and table keys are ASCII.
- Rag.GenerateResponse: the fixed instruction text around the prompt parts is not modelled. The model receives the parts.
- Rag.GenerateResponse: a turn's `None` side stands for a missing key, read as "". The history rows come from `SELECT user_message, bot_response` (bank_chatbot_project/app.py:161-167), so both keys are always present. A NULL column, which the f-string would print as "None", is not modelled.
- Translation.DirectTranslate: the tokenizer's maximum length and the beam search are part of the model parameter.
- ChatServer.RasaText: a 200 reply whose body is not a JSON list is treated as empty. A part whose `text` is JSON null, which would make the join raise, is not modelled.
- ChatServer.RouteChat: a `language` key present with value null is read as missing.
- The other controllers, routes and front end of the repository are not part of this model.

=== FILE: bank.dfy ===
/** The state the money transfer works on: account balances keyed by account
    number, in integer minor units, and the ledger of transaction records. */
module Bank {
  import opened Wrappers

  /** One row of the transaction table, as the transfer writes it. */
  datatype Record = Record(
    amount: int,
    paymentMethod: string,
    from: string,
    to: string,
    message: Option<string>,
    kind: string,
    recordType: string,
    timestamp: int)

  datatype Bank = Bank(balances: map<string, int>, ledger: seq<Record>)

  /** The sum of all balances: the money the bank holds. */
  ghost function Total(m: map<string, int>): int
    decreases m.Keys
  {
    if m == map[] then 0
    else
      var k :| k in m;
      m[k] + Total(m - {k})
  }

  /** Any account can be taken out of the sum first, whichever one the
      definition happens to pick. */
  lemma {:induction false} TotalRemove(m: map<string, int>, k: string)
    requires k in m
    ensures Total(m) == m[k] + Total(m - {k})
    decreases m.Keys
  {
    var j :| j in m && Total(m) == m[j] + Total(m - {j});
    if j != k {
      TotalRemove(m - {j}, k);
      TotalRemove(m - {k}, j);
      assert m - {j} - {k} == m - {k} - {j};
    }
  }

  /** Changing one existing balance changes the sum by exactly the change. */
  lemma TotalUpdate(m: map<string, int>, k: string, v: int)
    requires k in m
    ensures Total(m[k := v]) == Total(m) - m[k] + v
  {
    TotalRemove(m, k);
    TotalRemove(m[k := v], k);
    assert m[k := v] - {k} == m - {k};
  }

  /** What one record adds to the balance of account `a`: its amount when
      `a` receives it, minus its amount when `a` sends it. */
  function Delta(r: Record, a: string): int {
    (if r.to == a then r.amount else 0) - (if r.from == a then r.amount else 0)
  }

  /** The net effect of a run of records on account `a`. */
  function Net(rs: seq<Record>, a: string): int {
    if rs == [] then 0 else Net(rs[..|rs| - 1], a) + Delta(rs[|rs| - 1], a)
  }
}

=== FILE: chat_server.dfy ===
/** The chat server's own logic: cleaning text for speech, the language
    defaults, joining the Rasa reply, and routing a chat request either to
    the retrieval answerer or to Rasa. */
module ChatServer {
  import opened Wrappers
  import opened Truthiness
  import opened Text
  import Rag

  /** The character class of the emoji pattern, range by range as written. */
  predicate InEmojiPattern(c: char) {
    var n := c as int;
    || 0x1F600 <= n <= 0x1F64F || 0x1F300 <= n <= 0x1F5FF || 0x1F680 <= n <= 0x1F6FF
    || 0x1F1E0 <= n <= 0x1F1FF || 0x2500 <= n <= 0x2BEF || 0x2702 <= n <= 0x27B0
    || 0x24C2 <= n <= 0x1F251 || 0x1F926 <= n <= 0x1F937 || 0x10000 <= n <= 0x10FFFF
    || 0x2640 <= n <= 0x2642 || 0x2600 <= n <= 0x2B55
    || n == 0x200D || n == 0x23CF || n == 0x23E9 || n == 0x231A || n == 0xFE0F || n == 0x3030
  }

  /** The ranges overlap so much that the class is four single characters
      and everything from U+24C2 up: CJK text and the ideographic space go
      too, while Devanagari and Gujarati stay. */
  lemma EmojiPatternSpan(c: char)
    ensures InEmojiPattern(c) <==>
      var n := c as int;
      n == 0x200D || n == 0x231A || n == 0x23CF || n == 0x23E9 || 0x24C2 <= n
  {
  }

  /** The text with every character of the class removed. */
  function DropEmojis(s: string): (r: string)
    ensures |r| <= |s|
    ensures forall i :: 0 <= i < |r| ==> !InEmojiPattern(r[i]) && r[i] in s
    ensures (forall i :: 0 <= i < |s| ==> !InEmojiPattern(s[i])) ==> r == s
    // Every other character is kept, as often as it occurs.
    ensures forall c :: !InEmojiPattern(c) ==> multiset(r)[c] == multiset(s)[c]
  {
    if s == [] then []
    else
      var rest := DropEmojis(s[1..]);
      var r := if InEmojiPattern(s[0]) then rest else [s[0]] + rest;
      DropEmojisStep(s, rest, r);
      r
  }

  /** One step of `DropEmojis`: what holds of the rest holds after the
      first character is kept or dropped. */
  lemma DropEmojisStep(s: string, rest: string, r: string)
    requires s != []
    requires |rest| <= |s[1..]|
    requires forall i :: 0 <= i < |rest| ==> !InEmojiPattern(rest[i]) && rest[i] in s[1..]
    requires (forall i :: 0 <= i < |s[1..]| ==> !InEmojiPattern(s[1..][i])) ==> rest == s[1..]
    requires forall c :: !InEmojiPattern(c) ==> multiset(rest)[c] == multiset(s[1..])[c]
    requires r == if InEmojiPattern(s[0]) then rest else [s[0]] + rest
    ensures |r| <= |s|
    ensures forall i :: 0 <= i < |r| ==> !InEmojiPattern(r[i]) && r[i] in s
    ensures (forall i :: 0 <= i < |s| ==> !InEmojiPattern(s[i])) ==> r == s
    ensures forall c :: !InEmojiPattern(c) ==> multiset(r)[c] == multiset(s)[c]
  {
    assert forall i :: 0 < i < |s| ==> s[i] == s[1..][i - 1];
    assert s == [s[0]] + s[1..];
  }

  /** The class is dropped piece by piece, so the order of what is kept is
      the order of the input. */
  lemma {:induction false} DropEmojisAppend(a: string, b: string)
    ensures DropEmojis(a + b) == DropEmojis(a) + DropEmojis(b)
    decreases |a|
  {
    if a == [] {
      assert a + b == b;
    } else {
      assert (a + b)[0] == a[0];
      assert (a + b)[1..] == a[1..] + b;
      DropEmojisAppend(a[1..], b);
    }
  }

  /** Every white-space character is a plain space followed by a visible
      character or by nothing. */
  predicate SingleSpaced(r: string) {
    forall i :: 0 <= i < |r| && IsPySpace(r[i]) ==>
      r[i] == ' ' && (i + 1 == |r| || !IsPySpace(r[i + 1]))
  }

  /** `re.sub(r'\s+', ' ', s)`: each run of white space becomes one space. */
  function Collapse(s: string): (r: string)
    ensures r == [] <==> s == []
    ensures r != [] ==> (IsPySpace(r[0]) <==> IsPySpace(s[0]))
    ensures SingleSpaced(r)
    ensures forall i :: 0 <= i < |r| ==> r[i] == ' ' || r[i] in s
    decreases |s|
  {
    if s == [] then []
    else if IsPySpace(s[0]) then
      var t := StripLeft(PyWhitespace, s);
      assert t != [] ==> t[0] != s[0];
      var c := Collapse(t);
      SpaceThenCollapsed(s, t, c);
      " " + c
    else
      var c := Collapse(s[1..]);
      CharThenCollapsed(s, c);
      [s[0]] + c
  }

  /** One space before the collapse of what follows a run of white space. */
  lemma SpaceThenCollapsed(s: string, t: string, c: string)
    requires |t| <= |s| && t == s[|s| - |t|..]
    requires c != [] ==> t != [] && !IsPySpace(c[0])
    requires SingleSpaced(c)
    requires forall i :: 0 <= i < |c| ==> c[i] == ' ' || c[i] in t
    ensures SingleSpaced(" " + c)
    ensures forall i :: 0 <= i < |" " + c| ==> (" " + c)[i] == ' ' || (" " + c)[i] in s
  {
    var r := " " + c;
    forall i | 0 <= i < |r| && IsPySpace(r[i])
      ensures r[i] == ' ' && (i + 1 == |r| || !IsPySpace(r[i + 1]))
    {
      if i > 0 {
        assert r[i] == c[i - 1];
      }
      if i + 1 < |r| {
        assert r[i + 1] == c[i];
      }
    }
    forall i | 0 <= i < |r| ensures r[i] == ' ' || r[i] in s {
      if i > 0 && r[i] != ' ' {
        assert r[i] == c[i - 1];
        var j :| 0 <= j < |t| && t[j] == c[i - 1];
        assert s[|s| - |t| + j] == t[j];
      }
    }
  }

  /** A visible character before the collapse of the rest. */
  lemma CharThenCollapsed(s: string, c: string)
    requires s != [] && !IsPySpace(s[0])
    requires SingleSpaced(c)
    requires forall i :: 0 <= i < |c| ==> c[i] == ' ' || c[i] in s[1..]
    ensures SingleSpaced([s[0]] + c)
    ensures forall i :: 0 <= i < |[s[0]] + c| ==> ([s[0]] + c)[i] == ' ' || ([s[0]] + c)[i] in s
  {
    var r := [s[0]] + c;
    forall i | 0 <= i < |r| && IsPySpace(r[i])
      ensures r[i] == ' ' && (i + 1 == |r| || !IsPySpace(r[i + 1]))
    {
      assert r[i] == c[i - 1];
      if i + 1 < |r| {
        assert r[i + 1] == c[i];
      }
    }
    forall i | 0 <= i < |r| ensures r[i] == ' ' || r[i] in s {
      if i > 0 && r[i] != ' ' {
        assert r[i] == c[i - 1];
        var j :| 0 <= j < |s[1..]| && s[1..][j] == c[i - 1];
        assert s[j + 1] == s[1..][j];
      }
    }
  }

  /** Collapsing keeps every visible character, in order. */
  lemma {:induction false} VisibleOfCollapse(s: string)
    ensures Visible(Collapse(s)) == Visible(s)
    decreases |s|
  {
    if s != [] {
      if IsPySpace(s[0]) {
        var t := StripLeft(PyWhitespace, s);
        assert t != [] ==> t[0] != s[0];
        VisibleOfCollapse(t);
        VisibleSkipsLeadingSpaces(s);
        assert (" " + Collapse(t))[1..] == Collapse(t);
      } else {
        VisibleOfCollapse(s[1..]);
        assert ([s[0]] + Collapse(s[1..]))[1..] == Collapse(s[1..]);
      }
    }
  }

  lemma CollapseVisibleStep(s: string)
    requires s != [] && !IsPySpace(s[0])
    ensures Collapse(s) == [s[0]] + Collapse(s[1..])
  {
  }

  lemma CollapseSpaceStep(s: string)
    requires s != [] && IsPySpace(s[0])
    ensures Collapse(s) == " " + Collapse(StripLeft(PyWhitespace, s))
  {
  }

  /** A run of visible characters is copied as it is. */
  lemma {:induction false} CollapseCopiesWord(s: string, n: nat)
    requires n <= |s|
    requires forall i :: 0 <= i < n ==> !IsPySpace(s[i])
    ensures Collapse(s) == s[..n] + Collapse(s[n..])
    decreases n
  {
    if n == 0 {
      assert s[n..] == s;
    } else {
      var t := s[1..];
      WordTailShift(s, n);
      CollapseVisibleStep(s);
      CollapseCopiesWord(t, n - 1);
      SeqShift(s, n, Collapse(s[n..]));
    }
  }

  lemma WordTailShift(s: string, n: nat)
    requires 0 < n <= |s|
    requires forall i :: 0 <= i < n ==> !IsPySpace(s[i])
    ensures forall i :: 0 <= i < n - 1 ==> !IsPySpace(s[1..][i])
  {
    forall i | 0 <= i < n - 1 ensures !IsPySpace(s[1..][i]) {
      assert s[1..][i] == s[i + 1];
    }
  }

  lemma SeqShift(s: string, n: nat, x: string)
    requires 0 < n <= |s|
    ensures [s[0]] + (s[1..][..n - 1] + x) == s[..n] + x && s[1..][n - 1..] == s[n..]
  {
    assert [s[0]] + s[1..][..n - 1] == s[..n];
  }

  /** Leading white space changes nothing for `split()`. */
  lemma WordsAfterStripLeft(s: string)
    ensures Words(StripLeft(PyWhitespace, s)) == Words(s)
  {
    var t := StripLeft(PyWhitespace, s);
    assert StripLeft(PyWhitespace, t) == t;
  }

  /** The space that stands for a leading run, when there is one. */
  function Lead(s: string): string {
    if s != [] && IsPySpace(s[0]) then " " else ""
  }

  /** The space that stands for a trailing run after the last word. */
  function Trail(s: string): string {
    if Words(s) != [] && IsPySpace(s[|s| - 1]) then " " else ""
  }

  /** Collapsing gives the words joined by single spaces, with one more
      space in front for leading white space and one behind for trailing
      white space. */
  lemma {:induction false} CollapseLayout(s: string)
    ensures Collapse(s) == Lead(s) + Join(Words(s), " ") + Trail(s)
    decreases |s|
  {
    if s == [] {
      EmptyLayout(s);
    } else if IsPySpace(s[0]) {
      StripLeftShorter(s);
      CollapseLayout(StripLeft(PyWhitespace, s));
      SpaceCase(s);
    } else {
      CollapseLayout(s[WordLength(s)..]);
      VisibleCase(s);
    }
  }

  /** The step of `CollapseLayout` for leading white space. */
  lemma SpaceCase(s: string)
    requires s != [] && IsPySpace(s[0])
    requires var t := StripLeft(PyWhitespace, s);
      Collapse(t) == Lead(t) + Join(Words(t), " ") + Trail(t)
    ensures Collapse(s) == Lead(s) + Join(Words(s), " ") + Trail(s)
  {
    CollapseSpaceStep(s);
    SpaceCaseLayout(s, Collapse(StripLeft(PyWhitespace, s)));
  }

  /** The step of `CollapseLayout` for a leading word. */
  lemma VisibleCase(s: string)
    requires s != [] && !IsPySpace(s[0])
    requires var u := s[WordLength(s)..];
      Collapse(u) == Lead(u) + Join(Words(u), " ") + Trail(u)
    ensures Collapse(s) == Lead(s) + Join(Words(s), " ") + Trail(s)
  {
    var n := WordLength(s);
    CollapseCopiesWord(s, n);
    VisibleCaseLayout(s, Collapse(s[n..]));
    NoLead(s, Join(Words(s), " "), Trail(s));
  }

  lemma EmptyLayout(s: string)
    requires s == []
    ensures Collapse(s) == Lead(s) + Join(Words(s), " ") + Trail(s)
  {
    assert Words(s) == [];
  }

  lemma StripLeftShorter(s: string)
    requires s != [] && IsPySpace(s[0])
    ensures |StripLeft(PyWhitespace, s)| < |s|
  {
  }

  lemma NoLead(s: string, x: string, y: string)
    requires s != [] && !IsPySpace(s[0])
    ensures Lead(s) + x + y == x + y
  {
    assert Lead(s) + x == x;
  }

  lemma SpaceCaseLayout(s: string, ct: string)
    requires s != [] && IsPySpace(s[0])
    requires var t := StripLeft(PyWhitespace, s);
      ct == Lead(t) + Join(Words(t), " ") + Trail(t)
    ensures " " + ct == Lead(s) + Join(Words(s), " ") + Trail(s)
  {
    LeadOfStripped(s);
    TrailOfStripped(s);
    WordsAfterStripLeft(s);
    var j := Join(Words(s), " ");
    var e := Trail(s);
    assert ct == "" + j + e;
    assert "" + j == j;
    assert Lead(s) == " ";
    AppendAssoc(" ", j, e);
  }

  lemma LeadOfStripped(s: string)
    ensures Lead(StripLeft(PyWhitespace, s)) == ""
  {
  }

  lemma TrailOfStripped(s: string)
    ensures Trail(StripLeft(PyWhitespace, s)) == Trail(s)
  {
    var t := StripLeft(PyWhitespace, s);
    WordsAfterStripLeft(s);
    LastOfStripLeft(PyWhitespace, s, t);
    TrailOfSameWords(s, t);
  }

  lemma TrailOfSameWords(s: string, t: string)
    requires Words(t) == Words(s)
    requires t != [] ==> s != [] && t[|t| - 1] == s[|s| - 1]
    ensures Trail(t) == Trail(s)
  {
    WordsOfEmpty(t);
  }

  /** Stripping a leading run keeps the last character. */
  lemma LastOfStripLeft(k: CharClass, s: string, t: string)
    requires t == StripLeft(k, s)
    ensures t != [] ==> s != [] && t[|t| - 1] == s[|s| - 1]
  {
    LastOfSuffix(s, t);
  }

  lemma TrailSame(s: string, t: string)
    requires Words(t) != [] <==> Words(s) != []
    requires Words(s) != [] ==> t != [] && s != [] && t[|t| - 1] == s[|s| - 1]
    ensures Trail(t) == Trail(s)
  {
  }

  lemma TrailSpace(s: string)
    requires Words(s) != [] && s != [] && IsPySpace(s[|s| - 1])
    ensures Trail(s) == " "
  {
  }

  lemma SpacesLayout(u: string)
    requires u != [] && IsPySpace(u[0]) && Words(u) == []
    ensures Lead(u) + Join(Words(u), " ") + Trail(u) == " "
  {
  }

  lemma LeadAfterWord(s: string)
    ensures var u := s[WordLength(s)..]; Lead(u) == if u == [] then "" else " "
  {
  }

  lemma TrailNoRest(s: string)
    requires s != [] && !IsPySpace(s[0]) && WordLength(s) == |s|
    ensures Trail(s) == ""
  {
    assert !IsPySpace(s[|s| - 1]);
  }

  lemma TrailSpaceRest(s: string)
    requires s != [] && !IsPySpace(s[0])
    requires var u := s[WordLength(s)..]; u != [] && Words(u) == []
    ensures Trail(s) == " "
  {
    var u := s[WordLength(s)..];
    WordsOfVisibleStart(s);
    LastOfDrop(s, WordLength(s));
    SpacesOnly(u);
    TrailSpace(s);
  }

  lemma TrailWordsRest(s: string)
    requires s != [] && !IsPySpace(s[0])
    requires var u := s[WordLength(s)..]; Words(u) != []
    ensures Trail(s) == Trail(s[WordLength(s)..])
  {
    var u := s[WordLength(s)..];
    WordsOfVisibleStart(s);
    WordsOfEmpty(u);
    LastOfDrop(s, WordLength(s));
    TrailSame(s, u);
  }

  lemma VisibleCaseLayout(s: string, cu: string)
    requires s != [] && !IsPySpace(s[0])
    requires var u := s[WordLength(s)..];
      cu == Lead(u) + Join(Words(u), " ") + Trail(u)
    ensures s[..WordLength(s)] + cu == Join(Words(s), " ") + Trail(s)
  {
    var u := s[WordLength(s)..];
    if Words(u) != [] {
      MoreWordsLayout(s, cu);
    } else if WordLength(s) == |s| {
      WordAtEndLayout(s, cu);
    } else {
      WordThenSpacesLayout(s, cu);
    }
  }

  lemma WordAtEndLayout(s: string, cu: string)
    requires s != [] && !IsPySpace(s[0]) && WordLength(s) == |s|
    requires var u := s[WordLength(s)..];
      cu == Lead(u) + Join(Words(u), " ") + Trail(u)
    ensures s[..WordLength(s)] + cu == Join(Words(s), " ") + Trail(s)
  {
    var w := s[..WordLength(s)];
    WordsOfVisibleStart(s);
    assert s[WordLength(s)..] == [];
    JoinCons(w, [], " ");
    TrailNoRest(s);
    NothingLayout(w, cu);
  }

  lemma NothingLayout(w: string, cu: string)
    requires cu == Lead([]) + Join([], " ") + Trail([])
    ensures w + cu == w + ""
  {
    assert Words([]) == [];
  }

  lemma WordThenSpacesLayout(s: string, cu: string)
    requires s != [] && !IsPySpace(s[0]) && WordLength(s) < |s|
    requires var u := s[WordLength(s)..];
      Words(u) == [] && cu == Lead(u) + Join(Words(u), " ") + Trail(u)
    ensures s[..WordLength(s)] + cu == Join(Words(s), " ") + Trail(s)
  {
    var w := s[..WordLength(s)];
    var u := s[WordLength(s)..];
    WordsOfVisibleStart(s);
    JoinCons(w, Words(u), " ");
    SpacesLayout(u);
    TrailSpaceRest(s);
  }

  lemma MoreWordsLayout(s: string, cu: string)
    requires s != [] && !IsPySpace(s[0])
    requires var u := s[WordLength(s)..];
      Words(u) != [] && cu == Lead(u) + Join(Words(u), " ") + Trail(u)
    ensures s[..WordLength(s)] + cu == Join(Words(s), " ") + Trail(s)
  {
    var n := WordLength(s);
    var w := s[..n];
    var u := s[n..];
    WordsOfVisibleStart(s);
    JoinCons(w, Words(u), " ");
    LeadAfterWord(s);
    WordsOfEmpty(u);
    TrailWordsRest(s);
    var ju := Join(Words(u), " ");
    var e := Trail(s);
    assert cu == " " + ju + e;
    AppendAssoc(w, " " + ju, e);
    AppendAssoc(w, " ", ju);
  }

  /** `re.sub(r'\s+', ' ', s).strip()` is `" ".join(s.split())`: both use the
      same white space, and each run between words becomes one space. */
  lemma CollapseThenStrip(s: string)
    ensures Strip(PyWhitespace, Collapse(s)) == Normalise(s)
  {
    CollapseLayout(s);
    JoinedWordsNormalised(Words(s));
    StripPadded(Lead(s), Join(Words(s), " "), Trail(s));
  }

  /** A collapsed text, stripped, is normalised. */
  lemma StrippedCollapseNormalised(c: string)
    requires SingleSpaced(c)
    ensures IsNormalised(Strip(PyWhitespace, c))
  {
    var r := Strip(PyWhitespace, c);
    StripIsInfix(PyWhitespace, c);
    InfixSingleSpaced(c, StripStart(PyWhitespace, c), r);
    StrippedSingleSpaced(r);
  }

  lemma InfixSingleSpaced(c: string, k: nat, r: string)
    requires SingleSpaced(c)
    requires k + |r| <= |c| && r == c[k..k + |r|]
    ensures SingleSpaced(r)
  {
    forall p | 0 <= p < |r| && IsPySpace(r[p])
      ensures r[p] == ' ' && (p + 1 == |r| || !IsPySpace(r[p + 1]))
    {
      assert r[p] == c[k + p];
      if p + 1 < |r| {
        assert r[p + 1] == c[k + p + 1];
      }
    }
  }

  lemma StrippedSingleSpaced(r: string)
    requires SingleSpaced(r) && IsStripped(PyWhitespace, r)
    ensures IsNormalised(r)
  {
  }

  /** `remove_emojis`: the class removed, white space collapsed, the ends
      stripped. */
  function RemoveEmojis(text: string): (r: string)
    ensures IsNormalised(r)
    ensures forall i :: 0 <= i < |r| ==> !InEmojiPattern(r[i])
    // The words left once the class is gone, joined by single spaces.
    ensures r == Normalise(DropEmojis(text))
  {
    var d := DropEmojis(text);
    var c := Collapse(d);
    CollapseAddsNoEmoji(d);
    StrippedCollapseNormalised(c);
    NoEmojiAfterStrip(c);
    CollapseThenStrip(d);
    Strip(PyWhitespace, c)
  }

  lemma CollapseAddsNoEmoji(d: string)
    requires forall i :: 0 <= i < |d| ==> !InEmojiPattern(d[i])
    ensures forall i :: 0 <= i < |Collapse(d)| ==> !InEmojiPattern(Collapse(d)[i])
  {
    var c := Collapse(d);
    forall i | 0 <= i < |c| ensures !InEmojiPattern(c[i]) {
      if c[i] != ' ' {
        var j :| 0 <= j < |d| && d[j] == c[i];
      }
    }
  }

  lemma NoEmojiAfterStrip(c: string)
    requires forall i :: 0 <= i < |c| ==> !InEmojiPattern(c[i])
    ensures forall i :: 0 <= i < |Strip(PyWhitespace, c)| ==> !InEmojiPattern(Strip(PyWhitespace, c)[i])
  {
    StripKeepsAll(PyWhitespace, c, ch => !InEmojiPattern(ch));
  }

  /** Nothing but the class and white space is lost: the visible characters
      left are exactly the visible non-emoji characters of the input. */
  lemma RemoveEmojisKeepsText(text: string)
    ensures Visible(RemoveEmojis(text)) == Visible(DropEmojis(text))
  {
    VisibleOfStrip(Collapse(DropEmojis(text)));
    VisibleOfCollapse(DropEmojis(text));
  }

  const SupportedLanguages: seq<string> := ["en", "hi", "mr", "gu"]

  /** `LANGUAGE_MAPPING.get(detected, 'en')`, with `None` for a detector that
      raises. */
  function DetectLanguage(detected: Option<string>): (r: string)
    ensures r in SupportedLanguages
    ensures detected.Some? && detected.value in SupportedLanguages ==> r == detected.value
    ensures !(detected.Some? && detected.value in SupportedLanguages) ==> r == "en"
  {
    if detected.Some? && detected.value in SupportedLanguages then detected.value else "en"
  }

  const SpeechFallback := "Response received"

  /** What `text_to_speech` hands to the speech engine. */
  datatype SpeechInput = SpeechInput(text: string, language: string)

  lemma FallbackIsClean()
    ensures IsNormalised(SpeechFallback)
    ensures forall i :: 0 <= i < |SpeechFallback| ==> !InEmojiPattern(SpeechFallback[i])
  {
    assert forall i :: 0 <= i < |SpeechFallback| ==> SpeechFallback[i] as int < 0x80;
    assert forall i :: 0 <= i < |SpeechFallback| && IsPySpace(SpeechFallback[i]) ==> i == 8;
  }

  /** `text_to_speech` up to the engine call: the text cleaned, with a fixed
      phrase when nothing is left, and the language defaulted. */
  function SpeechInputFor(text: string, language: string): (r: SpeechInput)
    ensures r.language in SupportedLanguages
    ensures language in SupportedLanguages ==> r.language == language
    ensures r.text != [] && IsNormalised(r.text)
    ensures forall i :: 0 <= i < |r.text| ==> !InEmojiPattern(r.text[i])
    ensures Strip(PyWhitespace, RemoveEmojis(text)) != [] ==> r.text == RemoveEmojis(text)
    ensures Strip(PyWhitespace, RemoveEmojis(text)) == [] ==> r.text == SpeechFallback
    ensures !(language in SupportedLanguages) ==> r.language == "en"
  {
    var clean := RemoveEmojis(text);
    FallbackIsClean();
    var lang := if language in SupportedLanguages then language else "en";
    if Strip(PyWhitespace, clean) == [] then SpeechInput(SpeechFallback, lang)
    else SpeechInput(clean, lang)
  }

  /** One element of the Rasa reply: its `text`, when it has one. */
  datatype RasaPart = RasaPart(text: Option<string>)

  /** The texts of the parts that have one, in order. */
  function TextsOf(parts: seq<RasaPart>): (r: seq<string>)
    ensures |r| <= |parts|
    ensures forall j :: 0 <= j < |r| ==> exists i :: 0 <= i < |parts| && parts[i].text == Some(r[j])
    ensures forall i :: 0 <= i < |parts| && parts[i].text.Some? ==> parts[i].text.value in r
    ensures |parts| == 1 ==> r == if parts[0].text.Some? then [parts[0].text.value] else []
  {
    if parts == [] then []
    else
      var rest := TextsOf(parts[1..]);
      assert forall i :: 0 < i < |parts| ==> parts[i] == parts[1..][i - 1];
      if parts[0].text.Some? then [parts[0].text.value] + rest else rest
  }

  const RasaFallback := "Sorry, I couldn't process your request."

  /** Collecting the texts of two runs of parts one after the other gives
      the texts of the first run, then those of the second. */
  lemma {:induction false} TextsOfAppend(a: seq<RasaPart>, b: seq<RasaPart>)
    ensures TextsOf(a + b) == TextsOf(a) + TextsOf(b)
    decreases |a|
  {
    if a == [] {
      assert a + b == b;
    } else {
      assert (a + b)[0] == a[0];
      assert (a + b)[1..] == a[1..] + b;
      TextsOfAppend(a[1..], b);
    }
  }

  /** The Rasa webhook's answer: the HTTP status and, for a 200, the JSON
      list (`None` for a JSON null). */
  datatype RasaResponse = RasaResponse(status: int, parts: Option<seq<RasaPart>>)

  datatype RasaOutcome = RasaUnreachable | BotText(text: string)

  /** `handle_rasa_chat` up to the bot text. */
  function RasaText(response: RasaResponse): (r: RasaOutcome)
    ensures response.status != 200 <==> r == RasaUnreachable
    ensures response.status == 200 && (response.parts.None? || response.parts.value == []) ==>
      r == BotText(RasaFallback)
    ensures response.status == 200 && response.parts.Some? && response.parts.value != [] ==>
      r == BotText(Join(TextsOf(response.parts.value), "\n\n"))
  {
    if response.status != 200 then RasaUnreachable
    else if response.parts.None? || response.parts.value == [] then BotText(RasaFallback)
    else BotText(Join(TextsOf(response.parts.value), "\n\n"))
  }

  /** A part text that the blank-line separator cannot be confused with: it
      holds no blank line and does not end in a line break. */
  predicate Separable(t: string) {
    !Contains(t, "\n\n") && (t == [] || t[|t| - 1] != '\n')
  }

  /** The bot text holds every part's text in order: splitting it on the
      blank line gives back exactly the texts of the parts, when some part
      has a text and no text can be confused with the separator. */
  lemma RasaTextRecoverable(parts: seq<RasaPart>)
    requires exists i :: 0 <= i < |parts| && parts[i].text.Some?
    requires forall i :: 0 <= i < |parts| && parts[i].text.Some? ==> Separable(parts[i].text.value)
    ensures Split(RasaText(RasaResponse(200, Some(parts))).text, "\n\n") == TextsOf(parts)
  {
    TextsSplitBack(parts);
    RasaTextJoins(parts);
  }

  lemma TextsSplitBack(parts: seq<RasaPart>)
    requires exists i :: 0 <= i < |parts| && parts[i].text.Some?
    requires forall i :: 0 <= i < |parts| && parts[i].text.Some? ==> Separable(parts[i].text.value)
    ensures Split(Join(TextsOf(parts), "\n\n"), "\n\n") == TextsOf(parts)
  {
    var ts := TextsOf(parts);
    TextsSeparable(parts);
    BlankLineSplit(ts);
  }

  lemma RasaTextJoins(parts: seq<RasaPart>)
    requires exists i :: 0 <= i < |parts| && parts[i].text.Some?
    ensures RasaText(RasaResponse(200, Some(parts))).text == Join(TextsOf(parts), "\n\n")
  {
  }

  lemma BlankLineSplit(ts: seq<string>)
    requires ts != []
    requires forall j :: 0 <= j < |ts| ==> Separable(ts[j])
    ensures Split(Join(ts, "\n\n"), "\n\n") == ts
  {
    assert ['\n', '\n'] == "\n\n";
    forall j | 0 <= j < |ts|
      ensures !Contains(ts[j], ['\n', '\n']) && (ts[j] == [] || ts[j][|ts[j]| - 1] != '\n')
    {
      assert Separable(ts[j]);
    }
    SplitOfJoin(ts, '\n');
  }

  lemma TextsSeparable(parts: seq<RasaPart>)
    requires exists i :: 0 <= i < |parts| && parts[i].text.Some?
    requires forall i :: 0 <= i < |parts| && parts[i].text.Some? ==> Separable(parts[i].text.value)
    ensures var ts := TextsOf(parts);
      ts != [] && forall j :: 0 <= j < |ts| ==> Separable(ts[j])
  {
    var ts := TextsOf(parts);
    forall j | 0 <= j < |ts| ensures Separable(ts[j]) {
      var i :| 0 <= i < |parts| && parts[i].text == Some(ts[j]);
      assert Separable(parts[i].text.value);
    }
  }

  /** The JSON body of a `/chat` request; `None` is a missing key. */
  datatype ChatRequest = ChatRequest(
    message: Option<string>,
    userId: Option<string>,
    conversationId: Option<string>,
    language: Option<string>)

  datatype Route =
    | BadRequest
    | ToRag(message: string, userId: string, conversationId: string, language: string)
    | ToRasa(message: string, userId: string, conversationId: string, language: string)

  predicate Complete(req: ChatRequest) {
    Truthy(req.message) && Truthy(req.userId) && Truthy(req.conversationId)
  }

  /** `chat`: 400 unless message, user id and conversation id are all given;
      then the retrieval answerer for banking queries when it is loaded, and
      Rasa for everything else. */
  function RouteChat(req: ChatRequest, ragLoaded: bool): (r: Route)
    ensures r.BadRequest? <==> !Complete(req)
    ensures r.ToRag? <==> Complete(req) && ragLoaded && Rag.IsBankingQuery(req.message.value)
    ensures r.ToRasa? <==> Complete(req) && !(ragLoaded && Rag.IsBankingQuery(req.message.value))
    ensures !r.BadRequest? ==>
      && r.message == req.message.value && r.userId == req.userId.value
      && r.conversationId == req.conversationId.value
      && r.language == req.language.GetOr("en")
  {
    if !Complete(req) then BadRequest
    else
      var m := req.message.value;
      var lang := req.language.GetOr("en");
      if ragLoaded && Rag.IsBankingQuery(m) then ToRag(m, req.userId.value, req.conversationId.value, lang)
      else ToRasa(m, req.userId.value, req.conversationId.value, lang)
  }

  /** Without the retrieval answerer every complete request goes to Rasa. */
  lemma NoRagMeansRasa(req: ChatRequest)
    requires Complete(req)
    ensures RouteChat(req, false).ToRasa?
  {
  }
}

=== FILE: history.dfy ===
/** The transaction-history query: the records that match an account number,
    newest first, at most ten. The database filter is written as `OR` over a
    single object, whose meaning depends on the ORM, so the match is a
    parameter of the model rather than a fixed "sender or receiver" test. */
module History {
  import opened Wrappers
  import opened Truthiness
  import opened Bank

  const PageSize: nat := 10

  /** Timestamps never increase along `rs`. */
  predicate NewestFirst(rs: seq<Record>) {
    forall i, j :: 0 <= i < j < |rs| ==> rs[i].timestamp >= rs[j].timestamp
  }

  /** The ledger's records that the filter accepts, in ledger order. */
  function Matching(ledger: seq<Record>, account: string, matches: (string, Record) -> bool): (r: seq<Record>)
    ensures |r| <= |ledger|
    ensures forall x :: x in r <==> x in ledger && matches(account, x)
    ensures multiset(r) <= multiset(ledger)
    ensures forall x :: multiset(r)[x] == if matches(account, x) then multiset(ledger)[x] else 0
  {
    if ledger == [] then []
    else
      var rest := Matching(ledger[1..], account, matches);
      assert ledger == [ledger[0]] + ledger[1..];
      if matches(account, ledger[0]) then [ledger[0]] + rest else rest
  }

  /** Places `x` before the first record of `rs` that is older than it. */
  function Insert(x: Record, rs: seq<Record>): (r: seq<Record>)
    requires NewestFirst(rs)
    ensures NewestFirst(r)
    ensures multiset(r) == multiset(rs) + multiset{x}
    ensures |r| == |rs| + 1
    ensures r[0] == x || (rs != [] && r[0] == rs[0])
  {
    if rs == [] || x.timestamp >= rs[0].timestamp then
      ConsNewestFirst(x, rs);
      [x] + rs
    else
      var tail := Insert(x, rs[1..]);
      InsertStep(x, rs, tail);
      [rs[0]] + tail
  }

  /** The step of `Insert` past an older head. */
  lemma InsertStep(x: Record, rs: seq<Record>, tail: seq<Record>)
    requires NewestFirst(rs) && rs != [] && x.timestamp < rs[0].timestamp
    requires NewestFirst(tail)
    requires multiset(tail) == multiset(rs[1..]) + multiset{x}
    requires |tail| == |rs| && (tail[0] == x || (|rs| > 1 && tail[0] == rs[1]))
    ensures NewestFirst([rs[0]] + tail)
    ensures multiset([rs[0]] + tail) == multiset(rs) + multiset{x}
  {
    assert rs == [rs[0]] + rs[1..];
    ConsNewestFirst(rs[0], tail);
  }

  /** A record no older than the head of a newest-first sequence can go in
      front of it. */
  lemma ConsNewestFirst(y: Record, t: seq<Record>)
    requires NewestFirst(t)
    requires t == [] || y.timestamp >= t[0].timestamp
    ensures NewestFirst([y] + t)
  {
    var r := [y] + t;
    forall i, j | 0 <= i < j < |r| ensures r[i].timestamp >= r[j].timestamp {
      if i == 0 && j > 1 {
        assert t[0].timestamp >= t[j - 1].timestamp;
      }
    }
  }

  /** The `orderBy: { timestamp: 'desc' }` ordering. Records with equal
      timestamps may come in any order in the database; this is one of them. */
  function SortNewestFirst(rs: seq<Record>): (r: seq<Record>)
    ensures NewestFirst(r)
    ensures multiset(r) == multiset(rs)
    ensures |r| == |rs|
  {
    if rs == [] then []
    else
      assert rs == [rs[0]] + rs[1..];
      Insert(rs[0], SortNewestFirst(rs[1..]))
  }

  /** The first `n` records, or all of them when there are fewer. */
  function Take(rs: seq<Record>, n: nat): seq<Record> {
    if |rs| <= n then rs else rs[..n]
  }

  /** Records of a newest-first sequence left out by taking a prefix are no
      newer than the last record taken. */
  lemma DroppedAreOlder(s: seq<Record>, n: nat)
    requires NewestFirst(s) && 0 < n < |s|
    ensures forall x :: x in multiset(s) - multiset(s[..n]) ==> x.timestamp <= s[n - 1].timestamp
  {
    assert s == s[..n] + s[n..];
    assert multiset(s) - multiset(s[..n]) == multiset(s[n..]);
    forall x | x in multiset(s[n..]) ensures x.timestamp <= s[n - 1].timestamp {
      var k :| 0 <= k < |s[n..]| && s[n..][k] == x;
      assert s[n + k] == x;
    }
  }

  /** The handler: 400 without an account number; otherwise the page of
      matching records. The ledger is only read. */
  function GetTransactionHistory(ledger: seq<Record>, accountNumber: Option<string>,
                                 matches: (string, Record) -> bool): (r: Result<seq<Record>, string>)
    ensures !Truthy(accountNumber) ==> r == Failure("account_number is required.")
    ensures Truthy(accountNumber) ==> r.Success?
    ensures r.Success? ==>
      var page := r.value;
      var all := Matching(ledger, accountNumber.value, matches);
      && |page| <= PageSize
      && NewestFirst(page)
      && multiset(page) <= multiset(all)
      && (forall x :: x in page ==> x in ledger && matches(accountNumber.value, x))
      && (|all| <= PageSize ==> multiset(page) == multiset(all))
      && (|all| >= PageSize ==> |page| == PageSize)
      && (forall x :: x in multiset(all) - multiset(page) ==> |page| > 0 && x.timestamp <= page[|page| - 1].timestamp)
  {
    if !Truthy(accountNumber) then Failure("account_number is required.")
    else
      var all := Matching(ledger, accountNumber.value, matches);
      PageFacts(all);
      Success(Take(SortNewestFirst(all), PageSize))
  }

  /** What taking the first page of the newest-first order guarantees. */
  lemma PageFacts(all: seq<Record>)
    ensures var page := Take(SortNewestFirst(all), PageSize);
      && |page| <= PageSize
      && NewestFirst(page)
      && multiset(page) <= multiset(all)
      && (forall x :: x in page ==> x in all)
      && (|all| <= PageSize ==> multiset(page) == multiset(all))
      && (|all| >= PageSize ==> |page| == PageSize)
      && (forall x :: x in multiset(all) - multiset(page) ==> |page| > 0 && x.timestamp <= page[|page| - 1].timestamp)
  {
    var sorted := SortNewestFirst(all);
    if |sorted| > PageSize {
      LongPage(sorted);
    } else {
      assert Take(sorted, PageSize) == sorted;
      assert multiset(all) - multiset(sorted) == multiset{};
    }
    forall x | x in Take(sorted, PageSize) ensures x in all {
      assert x in multiset(sorted);
    }
  }

  lemma LongPage(sorted: seq<Record>)
    requires NewestFirst(sorted) && |sorted| > PageSize
    ensures var page := sorted[..PageSize];
      && NewestFirst(page)
      && multiset(page) <= multiset(sorted)
      && (forall x :: x in page ==> x in sorted)
      && (forall x :: x in multiset(sorted) - multiset(page) ==> x.timestamp <= page[PageSize - 1].timestamp)
  {
    var page := sorted[..PageSize];
    DroppedAreOlder(sorted, PageSize);
    assert sorted == page + sorted[PageSize..];
    assert multiset(sorted) == multiset(page) + multiset(sorted[PageSize..]);
  }
}

=== FILE: kyc.dfy ===
/** Validation of a KYC submission: the PAN is required, the address checks
    are switched off, and an Aadhaar number, when given, must be twelve
    digits; plus the mask under which the Aadhaar number is echoed back. */
module Kyc {
  import opened Wrappers
  import opened Truthiness
  import opened Text
  import opened UserInfo

  /** The `documents` part of the submission. */
  datatype Documents = Documents(aadhaarNumber: Option<string>, panNumber: Option<string>)

  /** A JavaScript value that is either a boolean or a string. */
  datatype JsValue = JsBool(b: bool) | JsString(s: string)

  /** `has_address_proof` is declared as the boolean `false`... */
  const HasAddressProof: JsValue := JsBool(false)

  /** ...and both address checks compare it strictly with the string "yes". */
  predicate AddressChecksOn() {
    HasAddressProof == JsString("yes")
  }

  /** Where validation ends. `NotSubmitted` is the catch-all reply of the
      handler's `catch`: reached when `documents` is missing, when the
      customer lookup throws, and when an invalid Aadhaar number makes the
      handler call a `logger` it never imported. */
  datatype Verdict = PanRequired | NotSubmitted | Valid(maskedAadhaar: Option<string>)

  predicate IsAadhaar(s: string) {
    |s| == 12 && forall i :: 0 <= i < |s| ==> IsAsciiDigit(s[i])
  }

  predicate PanMissing(pan: Option<string>) {
    !Truthy(pan) || Strip(JsWhitespace, pan.value) == ""
  }

  /** What the validation accepts, stated on its own. */
  predicate Acceptable(d: Documents) {
    !PanMissing(d.panNumber) && (!Truthy(d.aadhaarNumber) || IsAadhaar(d.aadhaarNumber.value))
  }

  /** JavaScript's `s.slice(-4)`: the last four characters, or all of `s`. */
  function LastFour(s: string): (r: string)
    ensures |r| == if |s| < 4 then |s| else 4
    ensures r == s[|s| - |r|..]
  {
    if |s| < 4 then s else s[|s| - 4..]
  }

  const MaskPrefix := "XXXX-XXXX-"

  /** `"XXXX-XXXX-" + aadhaar_number.slice(-4)`, or null for a falsy number. */
  function MaskAadhaar(a: Option<string>): (r: Option<string>)
    ensures r.Some? <==> Truthy(a)
    ensures r.Some? ==>
      && StartsWith(r.value, MaskPrefix)
      && r.value[|MaskPrefix|..] == LastFour(a.value)
    // A valid number is shown as 14 characters of which only the last four
    // are digits, and those are its own last four.
    ensures Truthy(a) && IsAadhaar(a.value) ==>
      && |r.value| == 14
      && r.value[10..] == a.value[8..]
      && (forall i :: 0 <= i < 10 ==> !IsAsciiDigit(r.value[i]))
  {
    if Truthy(a) then Some(MaskPrefix + LastFour(a.value)) else None
  }

  /** The validation block of the KYC handler, in the order it runs, given
      the request's documents and what `getCustomerID` does for it. */
  function Validate(documents: Option<Documents>, customer: CustomerId): (v: Verdict)
    ensures documents.None? || customer.Throws? ==> v == NotSubmitted
    // The PAN check comes first, so a bad PAN wins over a bad Aadhaar number.
    ensures v == PanRequired <==>
      documents.Some? && customer.Returns? && PanMissing(documents.value.panNumber)
    ensures v.Valid? <==> documents.Some? && customer.Returns? && Acceptable(documents.value)
    ensures v.Valid? ==> v.maskedAadhaar == MaskAadhaar(documents.value.aadhaarNumber)
  {
    if documents.None? || customer.Throws? then NotSubmitted
    else
      var d := documents.value;
      if PanMissing(d.panNumber) then PanRequired
      // Reading the undeclared `addressLine1` would throw here.
      else if AddressChecksOn() then NotSubmitted
      else if Truthy(d.aadhaarNumber) && !IsAadhaar(d.aadhaarNumber.value) then NotSubmitted
      else Valid(MaskAadhaar(d.aadhaarNumber))
  }

  /** The address checks never fire: they compare a boolean with a string. */
  lemma AddressChecksNeverFire(documents: Option<Documents>, customer: CustomerId)
    ensures !AddressChecksOn()
    ensures documents.Some? && customer.Returns? && !PanMissing(documents.value.panNumber) ==>
      (Validate(documents, customer) == NotSubmitted <==>
        Truthy(documents.value.aadhaarNumber) && !IsAadhaar(documents.value.aadhaarNumber.value))
  {
  }

  /** Worked masks: a valid number shows its last four digits, a short one
      is shown whole, an empty one gives null. */
  lemma MaskExamples()
    ensures MaskAadhaar(Some("123456789012")) == Some("XXXX-XXXX-9012")
    ensures MaskAadhaar(Some("12")) == Some("XXXX-XXXX-12")
    ensures MaskAadhaar(Some("")) == None
  {
    assert LastFour("123456789012") == "9012";
    assert MaskPrefix + "9012" == "XXXX-XXXX-9012";
    assert MaskPrefix + "12" == "XXXX-XXXX-12";
  }

  /** Worked submissions: a short Aadhaar number ends in the catch-all
      reply, and a blank PAN is refused before the number is looked at. */
  lemma ValidateExamples()
    ensures Validate(Some(Documents(Some("1234"), Some("ABCDE1234F"))), Returns(None)) == NotSubmitted
    ensures Validate(Some(Documents(Some("1234"), Some(" \t"))), Returns(None)) == PanRequired
  {
    assert !InClass(JsWhitespace, "ABCDE1234F"[0]);
    assert AllIn(JsWhitespace, " \t");
  }
}

=== FILE: otp.dfy ===
/** The six-digit one-time code. The random draws are an input: draw `i` is
    the index `crypto.randomInt` returned on round `i`. */
module Otp {
  import opened Text

  /** The digit table, in the order the source lists it: 1 to 9, then 0. */
  const Numbers: seq<nat> := [1, 2, 3, 4, 5, 6, 7, 8, 9, 0]

  const OtpLength: nat := 6

  /** Six draws, each an index into the table. */
  predicate ValidDraws(draws: seq<nat>) {
    |draws| == OtpLength && forall i :: 0 <= i < |draws| ==> draws[i] < |Numbers|
  }

  /** The digit a draw selects, as a character. */
  function DigitOf(index: nat): (c: char)
    requires index < |Numbers|
    ensures IsAsciiDigit(c)
    ensures c == '0' <==> index == 9
  {
    DigitChar(Numbers[index])
  }

  /** The code a sequence of draws determines. */
  function CodeOf(draws: seq<nat>): (code: string)
    requires forall i :: 0 <= i < |draws| ==> draws[i] < |Numbers|
    ensures |code| == |draws|
    ensures forall i :: 0 <= i < |code| ==> code[i] == DigitOf(draws[i])
  {
    if draws == [] then [] else [DigitOf(draws[0])] + CodeOf(draws[1..])
  }

  /** `generateOTP`: six rounds, each appending the table entry at the drawn
      index. Appending a number to a string appends its decimal digits. */
  method GenerateOTP(draws: seq<nat>) returns (otp: string)
    requires ValidDraws(draws)
    ensures |otp| == OtpLength
    ensures forall i :: 0 <= i < |otp| ==> IsAsciiDigit(otp[i])
    ensures forall i :: 0 <= i < OtpLength ==> otp[i] == DigitChar(Numbers[draws[i]])
    ensures otp == CodeOf(draws)
  {
    otp := "";
    for i := 0 to OtpLength
      invariant |otp| == i
      invariant forall k :: 0 <= k < i ==> otp[k] == DigitOf(draws[k])
    {
      otp := otp + NatToString(Numbers[draws[i]]);
    }
  }

  /** The table index holding a digit character: the inverse of `DigitOf`. */
  function IndexOf(c: char): (index: nat)
    requires IsAsciiDigit(c)
    ensures index < |Numbers|
    ensures DigitOf(index) == c
  {
    if c == '0' then 9 else (c as int - '1' as int) as nat
  }

  /** No two table entries are the same digit, so the draw behind each
      character is determined by it. */
  lemma TableIsOneToOne(i: nat, j: nat)
    requires i < |Numbers| && j < |Numbers|
    ensures DigitOf(i) == DigitOf(j) ==> i == j
  {
  }

  /** Every six-digit code, a leading zero included, is what some draws give. */
  lemma EveryCodeReachable(code: string)
    requires |code| == OtpLength
    requires forall i :: 0 <= i < |code| ==> IsAsciiDigit(code[i])
    ensures exists draws :: ValidDraws(draws) && CodeOf(draws) == code
  {
    var draws := seq(|code|, i requires 0 <= i < |code| => IndexOf(code[i]));
    assert ValidDraws(draws);
    assert CodeOf(draws) == code;
  }
}

=== FILE: rag.dfy ===
/** The text helpers of the retrieval-augmented answerer: the banking-query
    classifier, how PDF and text files are cut into chunks, and how the
    prompt is assembled from the last few turns. Embeddings, the vector
    search and the language model are parameters. */
module Rag {
  import opened Wrappers
  import opened Text

  const BankingKeywords: seq<string> := [
    "account", "balance", "loan", "credit", "debit", "transaction",
    "bank", "card", "atm", "deposit", "withdrawal", "transfer",
    "interest", "savings", "checking", "mortgage", "investment",
    "statement", "fee", "overdraft", "pin", "branch", "online banking"
  ]

  /** Some keyword of `keywords` occurs in `t`, checked one by one. */
  function AnyKeyword(keywords: seq<string>, t: string): (b: bool)
    ensures b <==> exists i :: 0 <= i < |keywords| && Contains(t, keywords[i])
  {
    if keywords == [] then false
    else if Contains(t, keywords[0]) then true
    else
      var b := AnyKeyword(keywords[1..], t);
      assert forall i :: 0 < i < |keywords| ==> keywords[i] == keywords[1..][i - 1];
      b
  }

  /** `is_banking_query`: some keyword is a substring of the lowercased text. */
  function IsBankingQuery(text: string): (b: bool)
    ensures b <==> exists i :: 0 <= i < |BankingKeywords| && Contains(Lower(text), BankingKeywords[i])
  {
    AnyKeyword(BankingKeywords, Lower(text))
  }

  /** Lower-casing makes the test blind to ASCII case. */
  lemma BankingQueryIgnoresCase(text: string)
    ensures IsBankingQuery(text) == IsBankingQuery(Lower(text))
  {
    assert Lower(Lower(text)) == Lower(text);
  }

  /** `[f(p) for p in pieces if len(f(p)) > min]`. */
  function KeepLonger(pieces: seq<string>, f: string -> string, min: nat): (r: seq<string>)
    ensures |r| <= |pieces|
    ensures forall j :: 0 <= j < |r| ==> |r[j]| > min
    ensures |pieces| == 1 ==> r == if |f(pieces[0])| > min then [f(pieces[0])] else []
  {
    if pieces == [] then []
    else
      var c := f(pieces[0]);
      var rest := KeepLonger(pieces[1..], f, min);
      if |c| > min then [c] + rest else rest
  }

  /** Chunks are kept in the order of their pieces, duplicates included:
      keeping distributes over concatenation. */
  lemma {:induction false} KeepLongerAppend(a: seq<string>, b: seq<string>, f: string -> string, min: nat)
    ensures KeepLonger(a + b, f, min) == KeepLonger(a, f, min) + KeepLonger(b, f, min)
    decreases |a|
  {
    if a == [] {
      assert a + b == b;
    } else {
      assert (a + b)[0] == a[0];
      assert (a + b)[1..] == a[1..] + b;
      KeepLongerAppend(a[1..], b, f, min);
    }
  }

  /** Every kept chunk is the image of some piece. */
  lemma {:induction false} KeptComeFromPieces(pieces: seq<string>, f: string -> string, min: nat)
    ensures forall x :: x in KeepLonger(pieces, f, min) ==> exists i :: 0 <= i < |pieces| && x == f(pieces[i])
  {
    if pieces != [] {
      var tail := pieces[1..];
      KeptComeFromPieces(tail, f, min);
      var c := f(pieces[0]);
      var rest := KeepLonger(tail, f, min);
      var r := KeepLonger(pieces, f, min);
      assert r == (if |c| > min then [c] + rest else rest);
      forall x | x in r ensures exists i :: 0 <= i < |pieces| && x == f(pieces[i]) {
        if x == c {
          assert x == f(pieces[0]);
        } else {
          assert x in rest;
          var i :| 0 <= i < |tail| && x == f(tail[i]);
          assert tail[i] == pieces[i + 1];
        }
      }
    }
  }

  /** Every piece whose image is long enough is kept. */
  lemma {:induction false} LongPiecesKept(pieces: seq<string>, f: string -> string, min: nat)
    ensures forall i :: 0 <= i < |pieces| && |f(pieces[i])| > min ==> f(pieces[i]) in KeepLonger(pieces, f, min)
  {
    if pieces != [] {
      var tail := pieces[1..];
      LongPiecesKept(tail, f, min);
      var c := f(pieces[0]);
      var rest := KeepLonger(tail, f, min);
      var r := KeepLonger(pieces, f, min);
      assert r == (if |c| > min then [c] + rest else rest);
      forall i | 0 <= i < |pieces| && |f(pieces[i])| > min ensures f(pieces[i]) in r {
        if i > 0 {
          assert pieces[i] == tail[i - 1];
        }
      }
    }
  }

  /** Python's `p.strip()`. */
  const Clean: string -> string := p => Strip(PyWhitespace, p)

  /** Chunks made with `Clean` are stripped, and a separator no piece holds
      is held by no chunk. */
  lemma CleanChunks(pieces: seq<string>, min: nat, sep: string)
    requires forall i :: 0 <= i < |pieces| ==> !Contains(pieces[i], sep)
    ensures forall j :: 0 <= j < |KeepLonger(pieces, Clean, min)| ==>
      IsStripped(PyWhitespace, KeepLonger(pieces, Clean, min)[j])
      && !Contains(KeepLonger(pieces, Clean, min)[j], sep)
  {
    var r := KeepLonger(pieces, Clean, min);
    KeptComeFromPieces(pieces, Clean, min);
    forall j | 0 <= j < |r| ensures IsStripped(PyWhitespace, r[j]) && !Contains(r[j], sep) {
      assert r[j] in r;
      var i :| 0 <= i < |pieces| && r[j] == Clean(pieces[i]);
      StripKeepsOut(PyWhitespace, pieces[i], sep);
    }
  }

  /** What `Paragraphs` and `FaqChunks` share: cleaned chunks longer than
      `min`, none holding the separator, and every long piece kept. */
  lemma ChunkFacts(pieces: seq<string>, min: nat, sep: string)
    requires forall i :: 0 <= i < |pieces| ==> !Contains(pieces[i], sep)
    ensures var r := KeepLonger(pieces, Clean, min);
      && (forall j :: 0 <= j < |r| ==> |r[j]| > min && IsStripped(PyWhitespace, r[j]) && !Contains(r[j], sep))
      && (forall i :: 0 <= i < |pieces| ==> |Clean(pieces[i])| > min ==> Clean(pieces[i]) in r)
  {
    CleanChunks(pieces, min, sep);
    LongPiecesKept(pieces, Clean, min);
  }

  const MinParagraph: nat := 50

  /** Paragraph chunking: the blank-line separated pieces, stripped, kept
      when longer than 50 characters. */
  function Paragraphs(text: string): (r: seq<string>)
    ensures r == KeepLonger(Split(text, "\n\n"), Clean, MinParagraph)
    ensures forall j :: 0 <= j < |r| ==>
      |r[j]| > MinParagraph && IsStripped(PyWhitespace, r[j]) && !Contains(r[j], "\n\n")
    ensures forall i :: 0 <= i < |Split(text, "\n\n")| ==>
      |Clean(Split(text, "\n\n")[i])| > MinParagraph ==> Clean(Split(text, "\n\n")[i]) in r
  {
    var pieces := Split(text, "\n\n");
    ChunkFacts(pieces, MinParagraph, "\n\n");
    KeepLonger(pieces, Clean, MinParagraph)
  }

  /** FAQ chunking: the pieces between "Q:" markers, stripped, kept when not
      empty. */
  function FaqChunks(content: string): (r: seq<string>)
    ensures r == KeepLonger(Split(content, "Q:"), Clean, 0)
    ensures forall j :: 0 <= j < |r| ==>
      |r[j]| > 0 && IsStripped(PyWhitespace, r[j]) && !Contains(r[j], "Q:")
    ensures forall i :: 0 <= i < |Split(content, "Q:")| ==>
      |Clean(Split(content, "Q:")[i])| > 0 ==> Clean(Split(content, "Q:")[i]) in r
  {
    var pieces := Split(content, "Q:");
    ChunkFacts(pieces, 0, "Q:");
    KeepLonger(pieces, Clean, 0)
  }

  predicate IsFaq(content: string) {
    Contains(content, "Q:") || Contains(content, "Question:")
  }

  /** `load_text_file`'s chunking. */
  function TextChunks(content: string): (r: seq<string>)
    ensures IsFaq(content) ==> r == FaqChunks(content)
    ensures !IsFaq(content) ==> r == Paragraphs(content)
  {
    if IsFaq(content) then FaqChunks(content) else Paragraphs(content)
  }

  /** Content marked with "Question:" but never "Q:" is one single FAQ chunk:
      the split on "Q:" finds nothing to cut. */
  lemma QuestionMarkersAreNotSplit(content: string)
    requires Contains(content, "Question:") && !Contains(content, "Q:")
    ensures TextChunks(content) == [Clean(content)]
  {
    SplitWithoutSeparator(content, "Q:");
    NotBlank(content, "Question:");
    var c := Strip(PyWhitespace, content);
    assert KeepLonger([content][1..], Clean, 0) == [];
    assert KeepLonger([content], Clean, 0) == [c];
  }

  /** Text holding a needle that starts with a visible character is not
      blank. */
  lemma NotBlank(s: string, sub: string)
    requires Contains(s, sub) && sub != [] && !IsPySpace(sub[0])
    ensures Strip(PyWhitespace, s) != []
  {
    var i :| 0 <= i <= |s| - |sub| && OccursAt(s, sub, i);
    assert s[i..i + |sub|][0] == s[i];
    assert !AllIn(PyWhitespace, s) by {
      assert !InClass(PyWhitespace, s[i]);
    }
  }

  /** The page-marked text `load_pdf` extracts. */
  function PdfText(pages: seq<string>): string {
    if pages == [] then ""
    else
      var n := |pages| - 1;
      PdfText(pages[..n]) + "\n--- Page " + NatToString(n + 1) + " ---\n" + pages[n]
  }

  /** `load_pdf`: the pages' chunks appended to the documents; a file that
      cannot be read (`None`) adds nothing. */
  function LoadPdf(documents: seq<string>, pages: Option<seq<string>>): (r: seq<string>)
    ensures |r| >= |documents| && r[..|documents|] == documents
    ensures pages.None? ==> r == documents
    ensures pages.Some? ==> r[|documents|..] == Paragraphs(PdfText(pages.value))
  {
    match pages
    case None => documents
    case Some(ps) =>
      var r := documents + Paragraphs(PdfText(ps));
      assert r[|documents|..] == Paragraphs(PdfText(ps));
      r
  }

  /** `load_text_file`: likewise, with the FAQ-aware chunking. */
  function LoadText(documents: seq<string>, content: Option<string>): (r: seq<string>)
    ensures |r| >= |documents| && r[..|documents|] == documents
    ensures content.None? ==> r == documents
    ensures content.Some? ==> r[|documents|..] == TextChunks(content.value)
  {
    match content
    case None => documents
    case Some(c) =>
      var r := documents + TextChunks(c);
      assert r[|documents|..] == TextChunks(c);
      r
  }

  const NoDocuments := "No specific banking documents found for this query."

  const Apology := "I apologize, but I'm having trouble processing your request right now. Please try again or contact customer service for assistance."

  /** The banking context: the found passages, or a fixed note when none. */
  function ContextOf(found: seq<string>): (r: string)
    ensures found == [] ==> r == NoDocuments
    ensures found != [] ==> r == Join(found, "\n\n")
  {
    if found == [] then NoDocuments else Join(found, "\n\n")
  }

  /** One past exchange; `None` stands for a missing key, which reads as "".
      A NULL column, which Python would print as "None", is not modelled. */
  datatype Turn = Turn(userMessage: Option<string>, botResponse: Option<string>)

  const HistoryWindow: nat := 4

  /** `conversation_history[-4:]`. */
  function RecentTurns(history: seq<Turn>): (r: seq<Turn>)
    ensures |r| == if |history| < HistoryWindow then |history| else HistoryWindow
    ensures r == history[|history| - |r|..]
  {
    if |history| <= HistoryWindow then history else history[|history| - HistoryWindow..]
  }

  function TurnText(t: Turn): string {
    "User: " + t.userMessage.GetOr("") + "\nBot: " + t.botResponse.GetOr("")
  }

  /** The history part of the prompt. */
  function ConversationContext(history: seq<Turn>): string {
    var recent := RecentTurns(history);
    Join(seq(|recent|, i requires 0 <= i < |recent| => TurnText(recent[i])), "\n")
  }

  /** What the prompt is made of; the instructions around these parts are
      fixed text. */
  datatype Prompt = Prompt(context: string, userContext: string, history: string, question: string)

  /** `generate_response`, given what the search found and the language
      model (`None` when it raises). */
  function GenerateResponse(query: string, userContext: string, history: seq<Turn>,
                            found: seq<string>, llm: Prompt -> Option<string>): (r: string)
    ensures var p := Prompt(ContextOf(found), userContext, ConversationContext(history), query);
      && (llm(p).None? ==> r == Apology)
      && (llm(p).Some? ==> r == Strip(PyWhitespace, llm(p).value))
  {
    var prompt := Prompt(ContextOf(found), userContext, ConversationContext(history), query);
    match llm(prompt)
    case None => Apology
    case Some(out) => Strip(PyWhitespace, out)
  }

  /** Turns older than the last four never reach the model: histories that
      end alike give the same answer. */
  lemma OnlyRecentTurnsMatter(query: string, userContext: string, h1: seq<Turn>, h2: seq<Turn>,
                              found: seq<string>, llm: Prompt -> Option<string>)
    requires RecentTurns(h1) == RecentTurns(h2)
    ensures GenerateResponse(query, userContext, h1, found, llm)
         == GenerateResponse(query, userContext, h2, found, llm)
  {
  }

  /** Turns before the window do not change which turns are recent. */
  lemma {:induction false} OlderTurnsDropped(older: seq<Turn>, history: seq<Turn>)
    requires |history| >= HistoryWindow
    ensures RecentTurns(older + history) == RecentTurns(history)
  {
    var h := older + history;
    assert h[|h| - HistoryWindow..] == history[|history| - HistoryWindow..];
  }
}

=== FILE: signalling.dfy ===
/** The video-KYC signalling server: one remembered admin socket, set by
    `admin-register` and cleared when that socket disconnects, and messages
    relayed between sockets. */
module Signalling {
  import opened Wrappers

  type SocketId = string

  /** What a socket sends the server; `socket` is the sender's id. */
  datatype Event =
    | AdminRegister(socket: SocketId)
    | CallUser(socket: SocketId, offer: string)
    | AnswerCall(socket: SocketId, to: SocketId, answer: string)
    | IceCandidate(socket: SocketId, to: SocketId, candidate: string)
    | Disconnect(socket: SocketId)
  {
    /** Events that only relay a message and do not touch the admin. */
    predicate IsRelay() {
      CallUser? || AnswerCall? || IceCandidate?
    }
  }

  datatype Message =
    | IncomingCall(from: SocketId, offer: string)
    | NoAdmin
    | CallAnswered(answer: string)
    | IceRelay(candidate: string)

  /** One message sent to one socket. */
  datatype Emit = Emit(to: SocketId, message: Message)

  datatype Server = Server(admin: Option<SocketId>, sent: seq<Emit>)

  /** `adminSocketId` starts as null and nothing has been sent. */
  const Initial := Server(None, [])

  /** `if (adminSocketId)`: an admin id that is present and non-empty. */
  predicate HasAdmin(admin: Option<SocketId>) {
    admin.Some? && admin.value != ""
  }

  /** The server's reaction to one event. */
  function Handle(s: Server, e: Event): (t: Server)
    // Messages already sent stay sent; a relay sends exactly one more.
    ensures |t.sent| == |s.sent| + (if e.IsRelay() then 1 else 0)
      && t.sent[..|s.sent|] == s.sent
    ensures e.AdminRegister? ==> t.admin == Some(e.socket)
    ensures e.Disconnect? ==> t.admin == (if s.admin == Some(e.socket) then None else s.admin)
    ensures e.IsRelay() ==> t.admin == s.admin
    // A call reaches the admin when there is one, and otherwise only the
    // caller hears back.
    ensures e.CallUser? && HasAdmin(s.admin) ==>
      t.sent[|s.sent|] == Emit(s.admin.value, IncomingCall(e.socket, e.offer))
    ensures e.CallUser? && !HasAdmin(s.admin) ==> t.sent[|s.sent|] == Emit(e.socket, NoAdmin)
    ensures e.AnswerCall? ==> t.sent[|s.sent|] == Emit(e.to, CallAnswered(e.answer))
    ensures e.IceCandidate? ==> t.sent[|s.sent|] == Emit(e.to, IceRelay(e.candidate))
  {
    match e
    case AdminRegister(id) => s.(admin := Some(id))
    case CallUser(id, offer) =>
      if HasAdmin(s.admin) then s.(sent := s.sent + [Emit(s.admin.value, IncomingCall(id, offer))])
      else s.(sent := s.sent + [Emit(id, NoAdmin)])
    case AnswerCall(_, to, answer) => s.(sent := s.sent + [Emit(to, CallAnswered(answer))])
    case IceCandidate(_, to, candidate) => s.(sent := s.sent + [Emit(to, IceRelay(candidate))])
    case Disconnect(id) => if s.admin == Some(id) then s.(admin := None) else s
  }

  /** The server after a sequence of events, from the start. */
  function Run(events: seq<Event>): Server {
    if events == [] then Initial
    else Handle(Run(events[..|events| - 1]), events[|events| - 1])
  }

  /** Socket `s` registered at position `i` and, after that, no socket
      registered and `s` did not disconnect. */
  predicate RegisteredAt(events: seq<Event>, i: int, s: SocketId) {
    && 0 <= i < |events|
    && events[i] == AdminRegister(s)
    && forall j :: i < j < |events| ==> !events[j].AdminRegister? && events[j] != Disconnect(s)
  }

  predicate IsLastRegistrant(events: seq<Event>, s: SocketId) {
    exists i :: 0 <= i < |events| && RegisteredAt(events, i, s)
  }

  /** The admin is exactly the last socket to register, as long as it has
      not disconnected since; otherwise there is none. */
  lemma {:induction false} AdminIsLastRegistrant(events: seq<Event>, s: SocketId)
    ensures Run(events).admin == Some(s) <==> IsLastRegistrant(events, s)
  {
    if events != [] {
      var n := |events| - 1;
      var p := events[..n];
      var e := events[n];
      AdminIsLastRegistrant(p, s);
      if e == AdminRegister(s) {
        assert RegisteredAt(events, n, s);
      } else if e.AdminRegister? || e == Disconnect(s) {
        forall i | 0 <= i < |events| ensures !RegisteredAt(events, i, s) {
          assert events[n] == e;
        }
      } else {
        forall i | 0 <= i < n ensures RegisteredAt(events, i, s) <==> RegisteredAt(p, i, s) {
          assert forall j :: i < j < n ==> events[j] == p[j];
        }
        if IsLastRegistrant(p, s) {
          var i :| 0 <= i < |p| && RegisteredAt(p, i, s);
          assert RegisteredAt(events, i, s);
        }
      }
    }
  }

  /** The events that can change the admin. */
  function AdminEvents(events: seq<Event>): (r: seq<Event>)
    ensures |r| <= |events|
    ensures forall e :: e in r <==> e in events && !e.IsRelay()
  {
    if events == [] then []
    else
      var n := |events| - 1;
      assert events == events[..n] + [events[n]];
      AdminEvents(events[..n]) + (if events[n].IsRelay() then [] else [events[n]])
  }

  /** Filtering two runs of events one after the other gives the filtered
      first run followed by the filtered second run: the order is kept. */
  lemma {:induction false} AdminEventsAppend(a: seq<Event>, b: seq<Event>)
    ensures AdminEvents(a + b) == AdminEvents(a) + AdminEvents(b)
    decreases |b|
  {
    if b == [] {
      assert a + b == a;
    } else {
      var n := |b| - 1;
      var ab := a + b;
      var last := if b[n].IsRelay() then [] else [b[n]];
      assert ab[..|ab| - 1] == a + b[..n];
      assert ab[|ab| - 1] == b[n];
      AdminEventsLast(ab);
      AdminEventsLast(b);
      AdminEventsAppend(a, b[..n]);
      EventsAssoc(AdminEvents(a), AdminEvents(b[..n]), last);
    }
  }

  lemma EventsAssoc(x: seq<Event>, y: seq<Event>, z: seq<Event>)
    ensures x + y + z == x + (y + z)
  {
  }

  lemma AdminEventsLast(s: seq<Event>)
    requires s != []
    ensures AdminEvents(s) ==
      AdminEvents(s[..|s| - 1]) + (if s[|s| - 1].IsRelay() then [] else [s[|s| - 1]])
  {
  }

  /** Relayed calls, answers and ICE candidates never change who the admin
      is: dropping them all leaves the admin the same. */
  lemma {:induction false} RelaysKeepAdmin(events: seq<Event>)
    ensures Run(AdminEvents(events)).admin == Run(events).admin
  {
    if events != [] {
      var n := |events| - 1;
      var p := events[..n];
      var e := events[n];
      RelaysKeepAdmin(p);
      assert Run(events) == Handle(Run(p), e);
      if e.IsRelay() {
        assert AdminEvents(events) == AdminEvents(p);
      } else {
        var r := AdminEvents(p) + [e];
        assert AdminEvents(events) == r;
        assert r[..|r| - 1] == AdminEvents(p);
        assert Run(r) == Handle(Run(AdminEvents(p)), e);
      }
    }
  }

  /** Registration, a call, the admin leaving, and a second call. */
  lemma CallScenario()
    ensures var s := Run([AdminRegister("adm"), CallUser("u1", "o1"), Disconnect("adm"), CallUser("u2", "o2")]);
      && s.admin == None
      && s.sent == [Emit("adm", IncomingCall("u1", "o1")), Emit("u2", NoAdmin)]
  {
    var evs := [AdminRegister("adm"), CallUser("u1", "o1"), Disconnect("adm"), CallUser("u2", "o2")];
    assert evs[..3][..2][..1][..0] == [];
    assert Run(evs[..3][..2][..1]).admin == Some("adm");
    assert Run(evs[..3][..2]).sent == [Emit("adm", IncomingCall("u1", "o1"))];
    assert Run(evs[..3]).admin == None;
  }
}

=== FILE: text.dfy ===
/** String operations shared by the JavaScript and Python helpers: the
    standard library calls the source leans on (`strip`, `trim`, `split`,
    `join`, `lower`, `in`), defined once over `seq<char>`. */
module Text {
  import opened Wrappers

  /** The characters a strip operation removes. */
  datatype CharClass = PyWhitespace | JsWhitespace | OneOf(chars: set<char>)

  /** Python's `str.isspace()` set, also used by `split()`, `strip()` and the
      `\s` class of `re` on text patterns. */
  predicate IsPySpace(c: char) {
    var n := c as int;
    n == 0x20 || 0x09 <= n <= 0x0d || 0x1c <= n <= 0x1f || n == 0x85 || n == 0xa0
    || n == 0x1680 || 0x2000 <= n <= 0x200a || n == 0x2028 || n == 0x2029
    || n == 0x202f || n == 0x205f || n == 0x3000
  }

  /** The white space and line terminators that JavaScript's
      `String.prototype.trim` removes. */
  predicate IsJsSpace(c: char) {
    var n := c as int;
    n == 0x20 || 0x09 <= n <= 0x0d || n == 0xa0 || n == 0x1680
    || 0x2000 <= n <= 0x200a || n == 0x2028 || n == 0x2029
    || n == 0x202f || n == 0x205f || n == 0x3000 || n == 0xfeff
  }

  predicate InClass(k: CharClass, c: char) {
    match k
    case PyWhitespace => IsPySpace(c)
    case JsWhitespace => IsJsSpace(c)
    case OneOf(cs) => c in cs
  }

  predicate AllIn(k: CharClass, s: string) {
    forall i :: 0 <= i < |s| ==> InClass(k, s[i])
  }

  /** Neither end of `s` is a character of class `k`. */
  predicate IsStripped(k: CharClass, s: string) {
    s == [] || (!InClass(k, s[0]) && !InClass(k, s[|s| - 1]))
  }

  /** `s` with its leading characters of class `k` removed. */
  function StripLeft(k: CharClass, s: string): (r: string)
    ensures |r| <= |s| && r == s[|s| - |r|..]
    ensures AllIn(k, s[..|s| - |r|])
    ensures r == [] || !InClass(k, r[0])
    decreases |s|
  {
    if s != [] && InClass(k, s[0]) then
      var r := StripLeft(k, s[1..]);
      LeadingRunExtends(k, s, |s| - 1 - |r|);
      r
    else s
  }

  lemma LeadingRunExtends(k: CharClass, s: string, n: nat)
    requires s != [] && InClass(k, s[0]) && n < |s| && AllIn(k, s[1..][..n])
    ensures AllIn(k, s[..n + 1])
  {
    forall i | 0 <= i < n + 1 ensures InClass(k, s[i]) {
      if i > 0 {
        assert s[i] == s[1..][..n][i - 1];
      }
    }
  }

  /** `s` with its trailing characters of class `k` removed. */
  function StripRight(k: CharClass, s: string): (r: string)
    ensures |r| <= |s| && r == s[..|r|]
    ensures AllIn(k, s[|r|..])
    ensures r == [] || !InClass(k, r[|r| - 1])
    decreases |s|
  {
    if s != [] && InClass(k, s[|s| - 1]) then
      var r := StripRight(k, s[..|s| - 1]);
      TrailingRunExtends(k, s, |r|);
      r
    else s
  }

  lemma TrailingRunExtends(k: CharClass, s: string, n: nat)
    requires s != [] && InClass(k, s[|s| - 1]) && n < |s| && AllIn(k, s[..|s| - 1][n..])
    ensures AllIn(k, s[n..])
  {
    forall i | n <= i < |s| ensures InClass(k, s[i]) {
      if i < |s| - 1 {
        assert s[i] == s[..|s| - 1][n..][i - n];
      }
    }
  }

  /** Where the infix `Strip` keeps begins: after the leading run. */
  function StripStart(k: CharClass, s: string): nat {
    |s| - |StripLeft(k, s)|
  }

  /** Python's `s.strip(chars)` and JavaScript's `s.trim()`: the infix of `s`
      left after removing both runs of class `k`. */
  function Strip(k: CharClass, s: string): (r: string)
    ensures IsStripped(k, r)
    ensures r == [] <==> AllIn(k, s)
  {
    var t := StripLeft(k, s);
    var r := StripRight(k, t);
    StripEnds(k, t, r);
    StripEmptyOnlyIfAllIn(k, s, t, r);
    r
  }

  /** What `Strip` keeps is the infix of `s` starting at `StripStart`. */
  lemma StripIsInfix(k: CharClass, s: string)
    ensures var i := StripStart(k, s); var r := Strip(k, s);
      i + |r| <= |s| && r == s[i..i + |r|]
  {
    StripUnfold(k, s);
    PrefixOfSuffix(s, StripStart(k, s), StripLeft(k, s), Strip(k, s));
  }

  /** A property every character of `s` has, every character of its strip
      has too. */
  lemma StripKeepsAll(k: CharClass, s: string, p: char -> bool)
    requires forall i :: 0 <= i < |s| ==> p(s[i])
    ensures forall i :: 0 <= i < |Strip(k, s)| ==> p(Strip(k, s)[i])
  {
    var r := Strip(k, s);
    var n := StripStart(k, s);
    StripIsInfix(k, s);
    InfixKeepsAll(s, n, r, p);
  }

  lemma InfixKeepsAll(s: string, n: nat, r: string, p: char -> bool)
    requires n + |r| <= |s| && r == s[n..n + |r|]
    requires forall i :: 0 <= i < |s| ==> p(s[i])
    ensures forall i :: 0 <= i < |r| ==> p(r[i])
  {
    forall i | 0 <= i < |r| ensures p(r[i]) {
      assert r[i] == s[n + i];
    }
  }

  lemma StripUnfold(k: CharClass, s: string)
    ensures Strip(k, s) == StripRight(k, StripLeft(k, s))
  {
  }

  /** A prefix `r` of the suffix `t` of `s` that starts at `i` is the infix
      of `s` at `i`. */
  lemma PrefixOfSuffix(s: string, i: nat, t: string, r: string)
    requires i + |t| == |s| && t == s[i..]
    requires |r| <= |t| && r == t[..|r|]
    ensures i + |r| <= |s| && r == s[i..i + |r|]
  {
    forall j | 0 <= j < |r| ensures r[j] == s[i + j] {
      assert r[j] == t[j];
    }
  }

  lemma StripEnds(k: CharClass, t: string, r: string)
    requires t == [] || !InClass(k, t[0])
    requires |r| <= |t| && r == t[..|r|]
    requires r == [] || !InClass(k, r[|r| - 1])
    ensures IsStripped(k, r)
  {
    if r != [] {
      assert r[0] == t[0];
    }
  }

  lemma StripEmptyOnlyIfAllIn(k: CharClass, s: string, t: string, r: string)
    requires t == StripLeft(k, s) && r == StripRight(k, t)
    ensures r == [] <==> AllIn(k, s)
  {
    if r == [] {
      assert t[|r|..] == t;
      assert AllIn(k, t);
      FirstInClass(k, t);
      assert s[..|s| - |t|] == s;
    } else {
      var i := |s| - |t|;
      assert t[0] == s[i];
      assert !InClass(k, s[i]);
    }
  }

  /** A non-empty run of class characters starts with one. */
  lemma FirstInClass(k: CharClass, t: string)
    ensures AllIn(k, t) && t != [] ==> InClass(k, t[0])
  {
  }

  /** A word of Python's `str.split()`: non-empty, without white space. */
  predicate IsWord(w: string) {
    w != [] && forall i :: 0 <= i < |w| ==> !IsPySpace(w[i])
  }

  /** Length of the run of non-space characters that starts `s`. */
  function WordLength(s: string): (n: nat)
    ensures n <= |s|
    ensures forall i :: 0 <= i < n ==> !IsPySpace(s[i])
    ensures n < |s| ==> IsPySpace(s[n])
  {
    if s == [] || IsPySpace(s[0]) then 0 else 1 + WordLength(s[1..])
  }

  /** Python's `s.split()` with no separator: the maximal runs of
      non-white-space characters, in order. */
  function Words(s: string): (ws: seq<string>)
    ensures forall i :: 0 <= i < |ws| ==> IsWord(ws[i])
    decreases |s|
  {
    var t := StripLeft(PyWhitespace, s);
    if t == [] then []
    else
      var n := WordLength(t);
      var rest := Words(t[n..]);
      WordsStep(t, rest);
      [t[..n]] + rest
  }

  /** The leading word of a string that starts with a visible character
      is a word, so putting it before words gives words. */
  lemma WordsStep(t: string, rest: seq<string>)
    requires t != [] && !IsPySpace(t[0])
    requires forall i :: 0 <= i < |rest| ==> IsWord(rest[i])
    ensures 0 < WordLength(t)
    ensures var ws := [t[..WordLength(t)]] + rest;
      forall i :: 0 <= i < |ws| ==> IsWord(ws[i])
  {
    var n := WordLength(t);
    forall i | 0 <= i < n ensures !IsPySpace(t[..n][i]) {
      assert t[..n][i] == t[i];
    }
    var ws := [t[..n]] + rest;
    forall i | 0 <= i < |ws| ensures IsWord(ws[i]) {
      if i > 0 {
        assert ws[i] == rest[i - 1];
      }
    }
  }

  /** Python's `sep.join(parts)` and JavaScript's `parts.join(sep)`. */
  function Join(parts: seq<string>, sep: string): string
  {
    if |parts| == 0 then ""
    else if |parts| == 1 then parts[0]
    else parts[0] + sep + Join(parts[1..], sep)
  }

  /** Single spaces between words, none at either end, no other white space. */
  predicate IsNormalised(s: string) {
    forall i :: 0 <= i < |s| && IsPySpace(s[i]) ==>
      s[i] == ' ' && 0 < i < |s| - 1 && !IsPySpace(s[i + 1])
  }

  /** Python's `" ".join(s.split())`. */
  function Normalise(s: string): (r: string)
    ensures IsNormalised(r)
  {
    JoinedWordsNormalised(Words(s));
    Join(Words(s), " ")
  }

  /** The non-white-space characters of `s`, in order. */
  function Visible(s: string): string
  {
    if s == [] then "" else (if IsPySpace(s[0]) then "" else [s[0]]) + Visible(s[1..])
  }

  function Concat(parts: seq<string>): string
  {
    if parts == [] then "" else parts[0] + Concat(parts[1..])
  }

  lemma {:induction false} JoinStart(ws: seq<string>, sep: string)
    requires |ws| > 0
    ensures |Join(ws, sep)| >= |ws[0]| && Join(ws, sep)[..|ws[0]|] == ws[0]
  {
  }

  /** Words joined by single spaces form a normalised string that starts with
      the first word. */
  lemma {:induction false} JoinedWordsNormalised(ws: seq<string>)
    requires forall i :: 0 <= i < |ws| ==> IsWord(ws[i])
    ensures IsNormalised(Join(ws, " "))
    ensures |ws| > 0 ==> |Join(ws, " ")| > 0 && !IsPySpace(Join(ws, " ")[0])
  {
    if |ws| > 1 {
      var a := ws[0];
      var j := Join(ws[1..], " ");
      JoinedWordsNormalised(ws[1..]);
      var r := a + " " + j;
      assert Join(ws, " ") == r;
      assert forall m :: 0 <= m < |a| ==> r[m] == a[m];
      forall i | 0 <= i < |r| && IsPySpace(r[i])
        ensures r[i] == ' ' && 0 < i < |r| - 1 && !IsPySpace(r[i + 1])
      {
        if i > |a| {
          var m := i - |a| - 1;
          assert j[m] == r[i];
          assert m < |j| - 1;
          assert r[i + 1] == j[m + 1];
        } else {
          assert r[i + 1] == j[0];
        }
      }
    }
  }

  lemma LeadingSpaceIgnored(t: string)
    requires t == [] || !IsPySpace(t[0])
    ensures StripLeft(PyWhitespace, " " + t) == t
  {
    assert (" " + t)[1..] == t;
  }

  lemma {:induction false} WordLengthOfWord(a: string, t: string)
    requires forall i :: 0 <= i < |a| ==> !IsPySpace(a[i])
    requires t == [] || IsPySpace(t[0])
    ensures WordLength(a + t) == |a|
    decreases |a|
  {
    if a == [] {
      assert a + t == t;
    } else {
      assert (a + t)[0] == a[0];
      assert (a + t)[1..] == a[1..] + t;
      WordLengthOfWord(a[1..], t);
    }
  }

  /** A leading space before a word-initial string does not change its words. */
  lemma WordsAfterSpace(j: string)
    requires j == [] || !IsPySpace(j[0])
    ensures Words(" " + j) == Words(j)
  {
    LeadingSpaceIgnored(j);
    assert StripLeft(PyWhitespace, j) == j;
  }

  /** A word followed by white space (or nothing) is split off first. */
  lemma WordsOfWordThen(a: string, rest: string)
    requires IsWord(a)
    requires rest == [] || IsPySpace(rest[0])
    ensures Words(a + rest) == [a] + Words(rest)
  {
    var s := a + rest;
    assert s[0] == a[0];
    assert StripLeft(PyWhitespace, s) == s;
    WordLengthOfWord(a, rest);
    assert s[..|a|] == a && s[|a|..] == rest;
  }

  /** Splitting words joined by single spaces gives the words back. */
  lemma {:induction false} WordsOfJoin(ws: seq<string>)
    requires forall i :: 0 <= i < |ws| ==> IsWord(ws[i])
    ensures Words(Join(ws, " ")) == ws
  {
    if |ws| == 1 {
      WordsOfWordThen(ws[0], "");
      assert ws[0] + "" == ws[0];
    } else if |ws| > 1 {
      var j := Join(ws[1..], " ");
      JoinedWordsNormalised(ws[1..]);
      WordsOfJoin(ws[1..]);
      WordThenSpace(ws[0], j);
      assert ws == [ws[0]] + ws[1..];
    }
  }

  /** A word, a single space and a string starting with a word split into
      that word and the words of the string. */
  lemma WordThenSpace(a: string, j: string)
    requires IsWord(a)
    requires j == [] || !IsPySpace(j[0])
    ensures Words(a + " " + j) == [a] + Words(j)
  {
    assert a + " " + j == a + (" " + j);
    WordsOfWordThen(a, " " + j);
    WordsAfterSpace(j);
  }

  /** Normalised text has no white space at either end to strip. */
  lemma NormalisedIsStripped(t: string)
    requires IsNormalised(t)
    ensures Strip(PyWhitespace, t) == t
  {
    StripUnfold(PyWhitespace, t);
    if t != [] {
      NormalisedEnds(t);
      assert StripLeft(PyWhitespace, t) == t;
      assert StripRight(PyWhitespace, t) == t;
    }
  }

  lemma NormalisedEnds(t: string)
    requires IsNormalised(t) && t != []
    ensures !InClass(PyWhitespace, t[0]) && !InClass(PyWhitespace, t[|t| - 1])
  {
  }

  /** Normalising twice is normalising once. */
  lemma NormaliseIdempotent(s: string)
    ensures Normalise(Normalise(s)) == Normalise(s)
  {
    WordsOfJoin(Words(s));
  }

  lemma {:induction false} VisibleAppend(a: string, b: string)
    ensures Visible(a + b) == Visible(a) + Visible(b)
    decreases |a|
  {
    if a == [] {
      assert a + b == b;
    } else {
      assert (a + b)[1..] == a[1..] + b;
      VisibleAppend(a[1..], b);
    }
  }

  lemma {:induction false} VisibleOfSpaces(s: string)
    requires AllIn(PyWhitespace, s)
    ensures Visible(s) == ""
    decreases |s|
  {
    if s != [] {
      VisibleOfSpaces(s[1..]);
    }
  }

  lemma {:induction false} VisibleOfNonSpace(s: string)
    requires forall i :: 0 <= i < |s| ==> !IsPySpace(s[i])
    ensures Visible(s) == s
    decreases |s|
  {
    if s != [] {
      VisibleOfNonSpace(s[1..]);
    }
  }

  /** Leading white space holds no visible character. */
  lemma VisibleSkipsLeadingSpaces(s: string)
    ensures Visible(StripLeft(PyWhitespace, s)) == Visible(s)
  {
    var t := StripLeft(PyWhitespace, s);
    var p := s[..|s| - |t|];
    assert s == p + t;
    VisibleAppend(p, t);
    VisibleOfSpaces(p);
  }

  /** Trailing white space holds no visible character. */
  lemma VisibleSkipsTrailingSpaces(s: string)
    ensures Visible(StripRight(PyWhitespace, s)) == Visible(s)
  {
    var t := StripRight(PyWhitespace, s);
    var q := s[|t|..];
    assert s == t + q;
    VisibleAppend(t, q);
    VisibleOfSpaces(q);
  }

  /** Stripping white space keeps every visible character. */
  lemma VisibleOfStrip(s: string)
    ensures Visible(Strip(PyWhitespace, s)) == Visible(s)
  {
    VisibleSkipsLeadingSpaces(s);
    VisibleSkipsTrailingSpaces(StripLeft(PyWhitespace, s));
  }

  lemma VisibleOfWordThen(t: string, n: nat)
    requires n <= |t|
    requires forall i :: 0 <= i < n ==> !IsPySpace(t[i])
    ensures Visible(t) == t[..n] + Visible(t[n..])
  {
    assert t == t[..n] + t[n..];
    VisibleAppend(t[..n], t[n..]);
    VisibleOfNonSpace(t[..n]);
  }

  /** `split()` loses no visible character: its words, concatenated, are
      exactly the non-white-space characters of the input. */
  lemma {:induction false} WordsKeepVisibleText(s: string)
    ensures Concat(Words(s)) == Visible(s)
    decreases |s|
  {
    var t := StripLeft(PyWhitespace, s);
    VisibleSkipsLeadingSpaces(s);
    if t != [] {
      var n := WordLength(t);
      var ws := Words(t[n..]);
      assert Words(s) == [t[..n]] + ws;
      assert Concat([t[..n]] + ws) == t[..n] + Concat(ws);
      VisibleOfWordThen(t, n);
      WordsKeepVisibleText(t[n..]);
    }
  }

  function LowerChar(c: char): char {
    if 'A' <= c <= 'Z' then (c as int + 32) as char else c
  }

  /** Python's `str.lower()` on the ASCII letters. */
  function Lower(s: string): (r: string)
    ensures |r| == |s|
    ensures forall i :: 0 <= i < |s| ==> r[i] == LowerChar(s[i])
  {
    seq(|s|, i requires 0 <= i < |s| => LowerChar(s[i]))
  }

  predicate StartsWith(s: string, p: string) {
    |p| <= |s| && s[..|p|] == p
  }

  predicate OccursAt(s: string, sub: string, i: int) {
    0 <= i && i + |sub| <= |s| && s[i..i + |sub|] == sub
  }

  /** Python's `sub in s` and JavaScript's `s.includes(sub)`. */
  predicate Contains(s: string, sub: string) {
    exists i :: 0 <= i <= |s| - |sub| && OccursAt(s, sub, i)
  }

  /** The first occurrence of `sep` in `s` at or after position `from`. */
  function FindFrom(s: string, sep: string, from: nat): (r: Option<nat>)
    requires from <= |s|
    ensures r.Some? ==> from <= r.value && OccursAt(s, sep, r.value)
    ensures forall j :: from <= j && (r.None? || j < r.value) ==> !OccursAt(s, sep, j)
    decreases |s| - from
  {
    if from + |sep| > |s| then None
    else if s[from..from + |sep|] == sep then Some(from)
    else if from == |s| then None
    else FindFrom(s, sep, from + 1)
  }

  lemma PrefixBeforeFirst(s: string, sep: string, i: nat)
    requires sep != [] && i <= |s|
    requires forall j :: 0 <= j < i ==> !OccursAt(s, sep, j)
    ensures !Contains(s[..i], sep)
  {
    forall j | 0 <= j <= i - |sep| ensures !OccursAt(s[..i], sep, j) {
      assert s[..i][j..j + |sep|] == s[j..j + |sep|];
      assert j < i && !OccursAt(s, sep, j);
    }
  }

  /** Python's `s.split(sep)` and JavaScript's `s.split(sep)` for a non-empty
      separator: the pieces between successive occurrences, left to right. */
  function Split(s: string, sep: string): (parts: seq<string>)
    requires sep != []
    ensures |parts| >= 1
    ensures forall i :: 0 <= i < |parts| ==> !Contains(parts[i], sep)
    decreases |s|
  {
    match FindFrom(s, sep, 0)
    case None =>
      PrefixBeforeFirst(s, sep, |s|);
      assert s[..|s|] == s;
      [s]
    case Some(i) =>
      PrefixBeforeFirst(s, sep, i);
      [s[..i]] + Split(s[i + |sep|..], sep)
  }

  /** Joining the pieces of a split with the same separator restores the
      input. */
  lemma {:induction false} SplitJoin(s: string, sep: string)
    requires sep != []
    ensures Join(Split(s, sep), sep) == s
    decreases |s|
  {
    var f := FindFrom(s, sep, 0);
    if f.Some? {
      var i := f.value;
      var rest := s[i + |sep|..];
      var tail := Split(rest, sep);
      SplitJoin(rest, sep);
      var parts := Split(s, sep);
      assert parts == [s[..i]] + tail;
      assert parts[1..] == tail;
      assert Join(parts, sep) == s[..i] + sep + Join(tail, sep);
      assert s == s[..i] + s[i..i + |sep|] + rest;
    }
  }

  /** The first piece of a split is the text up to the first separator, or
      the whole text when there is none. */
  lemma SplitHead(s: string, sep: string)
    requires sep != []
    ensures var f := Split(s, sep)[0];
      f == s[..|f|] && (|f| == |s| || OccursAt(s, sep, |f|))
  {
  }

  /** An occurrence inside an infix is an occurrence in the whole. */
  lemma InfixContains(s: string, i: nat, w: string, sub: string)
    requires i + |w| <= |s| && w == s[i..i + |w|]
    requires Contains(w, sub)
    ensures Contains(s, sub)
  {
    var j :| 0 <= j <= |w| - |sub| && OccursAt(w, sub, j);
    forall t | 0 <= t < |sub| ensures s[i + j..i + j + |sub|][t] == sub[t] {
      assert w[j..j + |sub|][t] == sub[t];
    }
    assert OccursAt(s, sub, i + j);
  }

  /** For a one-character needle, `Contains` is membership. */
  lemma ContainsChar(s: string, c: char)
    ensures Contains(s, [c]) <==> c in s
  {
    if c in s {
      var k :| 0 <= k < |s| && s[k] == c;
      assert s[k..k + 1] == [c];
      assert OccursAt(s, [c], k);
    }
    if Contains(s, [c]) {
      var k :| 0 <= k <= |s| - 1 && OccursAt(s, [c], k);
      assert s[k..k + 1][0] == s[k];
    }
  }

  /** Stripping never introduces an occurrence. */
  lemma StripKeepsOut(k: CharClass, s: string, sub: string)
    ensures Contains(Strip(k, s), sub) ==> Contains(s, sub)
  {
    var r := Strip(k, s);
    var n := StripStart(k, s);
    StripIsInfix(k, s);
    assert n + |r| <= |s| && r == s[n..n + |r|];
    if Contains(r, sub) {
      InfixContains(s, n, r, sub);
    }
  }

  /** Text without the separator is a single piece. */
  lemma SplitWithoutSeparator(s: string, sep: string)
    requires sep != [] && !Contains(s, sep)
    ensures Split(s, sep) == [s]
  {
    assert FindFrom(s, sep, 0).None?;
  }

  /** A doubled character `c` that follows text neither holding it nor
      ending in `c` is the first occurrence. */
  lemma FirstDoubledAfter(t: string, c: char, rest: string)
    requires !Contains(t, [c, c]) && (t == [] || t[|t| - 1] != c)
    ensures FindFrom(t + [c, c] + rest, [c, c], 0) == Some(|t|)
  {
    var sep := [c, c];
    var s := t + sep + rest;
    assert s[|t|..|t| + 2] == sep;
    assert OccursAt(s, sep, |t|);
    forall j | 0 <= j < |t| ensures !OccursAt(s, sep, j) {
      if j + 2 <= |t| {
        assert s[j..j + 2] == t[j..j + 2];
        assert OccursAt(s, sep, j) ==> OccursAt(t, sep, j);
      } else {
        assert s[j] == t[|t| - 1];
      }
    }
  }

  /** Splitting texts joined by a doubled character on that separator gives
      the texts back, when none holds the separator or ends in the
      character. */
  lemma {:induction false} SplitOfJoin(ts: seq<string>, c: char)
    requires ts != []
    requires forall i :: 0 <= i < |ts| ==>
      !Contains(ts[i], [c, c]) && (ts[i] == [] || ts[i][|ts[i]| - 1] != c)
    ensures Split(Join(ts, [c, c]), [c, c]) == ts
    decreases |ts|
  {
    var sep := [c, c];
    var t := ts[0];
    if |ts| == 1 {
      SplitWithoutSeparator(t, sep);
    } else {
      var tail := ts[1..];
      assert forall i :: 0 <= i < |tail| ==> tail[i] == ts[i + 1];
      var rest := Join(tail, sep);
      var s := t + sep + rest;
      assert Join(ts, sep) == s;
      FirstDoubledAfter(t, c, rest);
      assert s[..|t|] == t;
      assert s[|t| + |sep|..] == rest;
      SplitOfJoin(tail, c);
      assert Split(s, sep) == [t] + tail;
    }
  }

  /** The decimal digits of `n`, as Python's `str` and JavaScript's string
      conversion write a non-negative integer. */
  function NatToString(n: nat): (r: string)
    ensures |r| >= 1
    ensures forall i :: 0 <= i < |r| ==> '0' <= r[i] <= '9'
  {
    if n < 10 then [DigitChar(n)] else NatToString(n / 10) + [DigitChar(n % 10)]
  }

  function DigitChar(d: nat): (c: char)
    requires d < 10
    ensures '0' <= c <= '9' && c as int - '0' as int == d
  {
    ('0' as int + d) as char
  }

  predicate IsAsciiDigit(c: char) {
    '0' <= c <= '9'
  }

  lemma WordsOfEmpty(s: string)
    ensures s == [] ==> Words(s) == []
  {
  }

  lemma LastOfSuffix(s: string, t: string)
    requires |t| <= |s| && t == s[|s| - |t|..]
    ensures t != [] ==> t[|t| - 1] == s[|s| - 1]
  {
  }

  lemma LastOfDrop(s: string, n: nat)
    requires n <= |s|
    ensures s[n..] != [] ==> s[n..][|s[n..]| - 1] == s[|s| - 1]
  {
  }

  /** A text that starts with a visible character splits into its first
      word and the words of the rest. */
  lemma WordsOfVisibleStart(s: string)
    requires s != [] && !IsPySpace(s[0])
    ensures Words(s) == [s[..WordLength(s)]] + Words(s[WordLength(s)..])
  {
    assert StripLeft(PyWhitespace, s) == s;
  }

  lemma JoinCons(w: string, ws: seq<string>, sep: string)
    ensures ws == [] ==> Join([w] + ws, sep) == w
    ensures ws != [] ==> Join([w] + ws, sep) == w + sep + Join(ws, sep)
  {
    if ws != [] {
      assert ([w] + ws)[1..] == ws;
    }
  }

  lemma SpacesOnly(u: string)
    requires u != [] && Words(u) == []
    ensures IsPySpace(u[|u| - 1])
  {
    assert StripLeft(PyWhitespace, u) == [];
    assert u[..|u|] == u;
  }

  lemma AppendAssoc(a: string, b: string, c: string)
    ensures a + (b + c) == (a + b) + c
  {
  }

  /** An optional space before a text with a visible head is all that
      `lstrip` removes. */
  lemma PadLeft(l: string, x: string)
    requires l == "" || l == " "
    requires x == [] || !IsPySpace(x[0])
    ensures StripLeft(PyWhitespace, l + x) == x
  {
    if l == " " {
      assert (l + x)[1..] == x;
    } else {
      assert l + x == x;
    }
  }

  /** An optional space after a text with a visible last character is all
      that `rstrip` removes. */
  lemma PadRight(j: string, e: string)
    requires e == "" || e == " "
    requires j == [] || !IsPySpace(j[|j| - 1])
    ensures StripRight(PyWhitespace, j + e) == j
  {
    if e == " " {
      assert (j + e)[..|j|] == j;
    } else {
      assert j + e == j;
    }
  }

  /** Stripping one optional space from each side of a normalised text gives
      the text. */
  lemma StripPadded(l: string, j: string, e: string)
    requires l == "" || l == " "
    requires e == "" || e == " "
    requires IsNormalised(j) && (j == [] ==> e == [])
    ensures Strip(PyWhitespace, l + j + e) == j
  {
    var je := j + e;
    if j != [] {
      NormalisedEnds(j);
      assert je[0] == j[0];
    }
    PadLeft(l, je);
    AppendAssoc(l, j, e);
    StripUnfold(PyWhitespace, l + j + e);
    PadRight(j, e);
  }
}

=== FILE: transfer.dfy ===
/** The money-transfer handler: validate the request body, then, inside one
    all-or-nothing database transaction, look up both accounts, check the
    sender's funds, debit the sender, credit the receiver and append one
    transaction record. The transaction is modelled as a pure transition of
    the `Bank` state; a failed transaction leaves the state as it was. */
module Transfer {
  import opened Wrappers
  import opened Truthiness
  import opened Bank

  /** The request body fields the handler destructures. `otp` is read and
      never used. */
  datatype Request = Request(
    amount: Option<int>,
    paymentMethod: Option<string>,
    sender: Option<string>,
    receiver: Option<string>,
    message: Option<string>,
    kind: Option<string>,
    otp: Option<string>)

  /** The fields of a request that passed the falsiness check. */
  datatype Order = Order(
    amount: int,
    paymentMethod: string,
    sender: string,
    receiver: string,
    message: Option<string>,
    kind: string)

  /** Why the transaction threw and rolled back. */
  datatype Abort = AccountNotFound | InsufficientFunds

  datatype Outcome =
    | MissingFields
    | Transferred(sender: string, receiver: string, amount: int)
    | Aborted(cause: Abort)

  datatype Step = Step(outcome: Outcome, bank: Bank)

  datatype ReplyBody = ErrorBody(error: string) | SuccessBody(sender: string, receiver: string, amount: int)

  /** The HTTP status and JSON body the handler sends. */
  datatype Reply = Reply(status: int, body: ReplyBody)

  /** The guard in front of the transaction: amount, payment method, both
      account numbers and type must all be truthy, so an amount of 0 counts
      as missing; message and otp are not checked. */
  predicate HasRequiredFields(req: Request) {
    && TruthyNumber(req.amount)
    && Truthy(req.paymentMethod)
    && Truthy(req.sender)
    && Truthy(req.receiver)
    && Truthy(req.kind)
  }

  function CheckFields(req: Request): (r: Option<Order>)
    ensures r.Some? <==> HasRequiredFields(req)
    ensures r.Some? ==>
      && r.value.amount == req.amount.value && r.value.amount != 0
      && r.value.paymentMethod == req.paymentMethod.value
      && r.value.sender == req.sender.value && r.value.receiver == req.receiver.value
      && r.value.message == req.message && r.value.kind == req.kind.value
  {
    if HasRequiredFields(req) then
      Some(Order(req.amount.value, req.paymentMethod.value, req.sender.value,
                 req.receiver.value, req.message, req.kind.value))
    else None
  }

  /** The record the transaction appends for order `o` committed at `now`. */
  function RecordOf(o: Order, now: int): Record {
    Record(o.amount, o.paymentMethod, o.sender, o.receiver, o.message, o.kind, "TRANSFER", now)
  }

  /** The body of the database transaction. */
  function Commit(b: Bank, o: Order, now: int): (r: Step)
    // The transaction succeeds exactly when both accounts exist and the
    // sender holds at least the amount; otherwise nothing changes.
    ensures r.outcome.Transferred? <==>
      o.sender in b.balances && o.receiver in b.balances && b.balances[o.sender] >= o.amount
    ensures r.outcome == Aborted(AccountNotFound) <==>
      o.sender !in b.balances || o.receiver !in b.balances
    ensures r.outcome == Aborted(InsufficientFunds) <==>
      o.sender in b.balances && o.receiver in b.balances && b.balances[o.sender] < o.amount
    ensures !r.outcome.Transferred? ==> r.bank == b
    // On success: the reply echoes the order, the money moves from sender to
    // receiver, no other account and no existing record changes, and exactly
    // one record is appended.
    ensures r.outcome.Transferred? ==>
      && r.outcome == Transferred(o.sender, o.receiver, o.amount)
      && r.bank.balances.Keys == b.balances.Keys
      && (o.sender != o.receiver ==>
            && r.bank.balances[o.sender] == b.balances[o.sender] - o.amount
            && r.bank.balances[o.receiver] == b.balances[o.receiver] + o.amount)
      && (o.sender == o.receiver ==> r.bank.balances[o.sender] == b.balances[o.sender])
      && (forall a :: a in b.balances && a != o.sender && a != o.receiver ==>
            r.bank.balances[a] == b.balances[a])
      && r.bank.ledger == b.ledger + [Record(o.amount, o.paymentMethod, o.sender, o.receiver,
                                             o.message, o.kind, "TRANSFER", now)]
    // The funds check keeps a distinct sender solvent; the receiver stays
    // solvent only when the amount is not negative.
    ensures r.outcome.Transferred? && o.sender != o.receiver ==> r.bank.balances[o.sender] >= 0
    ensures r.outcome.Transferred? && o.amount >= 0 && b.balances[o.receiver] >= 0 ==>
      r.bank.balances[o.receiver] >= 0
  {
    if o.sender !in b.balances || o.receiver !in b.balances then
      Step(Aborted(AccountNotFound), b)
    else if b.balances[o.sender] < o.amount then
      Step(Aborted(InsufficientFunds), b)
    else
      var debited := b.balances[o.sender := b.balances[o.sender] - o.amount];
      var credited := debited[o.receiver := debited[o.receiver] + o.amount];
      Step(Transferred(o.sender, o.receiver, o.amount), Bank(credited, b.ledger + [RecordOf(o, now)]))
  }

  /** The whole handler: the field check, then the transaction. */
  function Execute(b: Bank, req: Request, now: int): (r: Step)
    ensures r.outcome == MissingFields <==> !HasRequiredFields(req)
    ensures !r.outcome.Transferred? ==> r.bank == b
    ensures r.outcome.Transferred? ==>
      r.outcome == Transferred(req.sender.GetOr(""), req.receiver.GetOr(""), req.amount.GetOr(0))
    ensures |r.bank.ledger| == |b.ledger| + (if r.outcome.Transferred? then 1 else 0)
    ensures r.bank.ledger[..|b.ledger|] == b.ledger
    ensures r.bank.balances.Keys == b.balances.Keys
  {
    match CheckFields(req)
    case None => Step(MissingFields, b)
    case Some(o) => Commit(b, o, now)
  }

  /** The HTTP reply: 400 for missing fields, 200 with the echoed order, and
      one undifferentiated 500 for every failure inside the transaction. */
  function Respond(o: Outcome): (r: Reply)
    ensures r.status == 200 <==> o.Transferred?
    ensures o.MissingFields? ==> r == Reply(400, ErrorBody("Missing required fields."))
    ensures o.Aborted? ==> r == Reply(500, ErrorBody("Internal server error."))
    ensures o.Transferred? ==> r.body == SuccessBody(o.sender, o.receiver, o.amount)
  {
    match o
    case MissingFields => Reply(400, ErrorBody("Missing required fields."))
    case Transferred(s, t, a) => Reply(200, SuccessBody(s, t, a))
    case Aborted(_) => Reply(500, ErrorBody("Internal server error."))
  }

  /** Every outcome of one request preserves the sum of all balances,
      including a self-transfer. */
  lemma ExecuteConserves(b: Bank, req: Request, now: int)
    ensures Total(Execute(b, req, now).bank.balances) == Total(b.balances)
  {
    if CheckFields(req).Some? {
      CommitConserves(b, CheckFields(req).value, now);
    }
  }

  lemma CommitConserves(b: Bank, o: Order, now: int)
    ensures Total(Commit(b, o, now).bank.balances) == Total(b.balances)
  {
    var m := b.balances;
    if o.sender in m && o.receiver in m && m[o.sender] >= o.amount {
      var debited := m[o.sender := m[o.sender] - o.amount];
      TotalUpdate(m, o.sender, m[o.sender] - o.amount);
      TotalUpdate(debited, o.receiver, debited[o.receiver] + o.amount);
    }
  }

  /** One request changes each account by the net effect of the records it
      appends. */
  lemma ExecuteReconciles(b: Bank, req: Request, now: int, a: string)
    requires a in b.balances
    ensures a in Execute(b, req, now).bank.balances
    ensures Execute(b, req, now).bank.balances[a]
            == b.balances[a] + Net(Execute(b, req, now).bank.ledger[|b.ledger|..], a)
  {
    var r := Execute(b, req, now);
    var added := r.bank.ledger[|b.ledger|..];
    if r.outcome.Transferred? {
      var o := CheckFields(req).value;
      assert added == [RecordOf(o, now)];
      assert Net(added, a) == Delta(RecordOf(o, now), a);
    } else {
      assert added == [];
    }
  }

  /** A request together with the time the transaction commits. */
  datatype Call = Call(req: Request, now: int)

  datatype Trace = Trace(bank: Bank, outcomes: seq<Outcome>)

  /** Requests handled one after another, each as one atomic transition. */
  function Run(b: Bank, calls: seq<Call>): (t: Trace)
    ensures |t.outcomes| == |calls|
    ensures |t.bank.ledger| >= |b.ledger|
  {
    if calls == [] then Trace(b, [])
    else
      var prev := Run(b, calls[..|calls| - 1]);
      var last := calls[|calls| - 1];
      var step := Execute(prev.bank, last.req, last.now);
      Trace(step.bank, prev.outcomes + [step.outcome])
  }

  function CountTransferred(os: seq<Outcome>): nat {
    if os == [] then 0
    else CountTransferred(os[..|os| - 1]) + (if os[|os| - 1].Transferred? then 1 else 0)
  }

  /** Conservation: no sequence of requests creates or destroys money. */
  lemma {:induction false} RunConserves(b: Bank, calls: seq<Call>)
    ensures Total(Run(b, calls).bank.balances) == Total(b.balances)
  {
    if calls != [] {
      var prev := Run(b, calls[..|calls| - 1]);
      var last := calls[|calls| - 1];
      RunConserves(b, calls[..|calls| - 1]);
      ExecuteConserves(prev.bank, last.req, last.now);
    }
  }

  /** The ledger is append-only: earlier records are never changed or
      removed, and one record is added per successful transfer. */
  lemma {:induction false} RunAppendsOnly(b: Bank, calls: seq<Call>)
    ensures Run(b, calls).bank.balances.Keys == b.balances.Keys
    ensures |Run(b, calls).bank.ledger| == |b.ledger| + CountTransferred(Run(b, calls).outcomes)
    ensures Run(b, calls).bank.ledger[..|b.ledger|] == b.ledger
  {
    if calls != [] {
      var init := calls[..|calls| - 1];
      var prev := Run(b, init);
      var last := calls[|calls| - 1];
      RunAppendsOnly(b, init);
      var step := Execute(prev.bank, last.req, last.now);
      assert Run(b, calls) == Trace(step.bank, prev.outcomes + [step.outcome]);
      CountLast(prev.outcomes, step.outcome);
      PrefixOfPrefix(b.ledger, prev.bank.ledger, step.bank.ledger);
    }
  }

  lemma CountLast(os: seq<Outcome>, o: Outcome)
    ensures CountTransferred(os + [o]) == CountTransferred(os) + if o.Transferred? then 1 else 0
  {
    assert (os + [o])[..|os|] == os;
  }

  /** A prefix of a prefix is a prefix. */
  lemma PrefixOfPrefix(a: seq<Record>, b: seq<Record>, c: seq<Record>)
    requires |a| <= |b| <= |c| && b[..|a|] == a && c[..|b|] == b
    ensures c[..|a|] == a
  {
    assert c[..|a|] == c[..|b|][..|a|];
  }

  lemma {:induction false} NetAppend(rs: seq<Record>, more: seq<Record>, a: string)
    ensures Net(rs + more, a) == Net(rs, a) + Net(more, a)
    decreases |more|
  {
    if more == [] {
      assert rs + more == rs;
    } else {
      var init := more[..|more| - 1];
      assert (rs + more)[..|rs + more| - 1] == rs + init;
      NetAppend(rs, init, a);
    }
  }

  /** Reconciliation: every account's balance is its opening balance plus the
      net effect of the records appended since. */
  lemma {:induction false} RunReconciles(b: Bank, calls: seq<Call>, a: string)
    requires a in b.balances
    ensures a in Run(b, calls).bank.balances
    ensures Run(b, calls).bank.balances[a]
            == b.balances[a] + Net(Run(b, calls).bank.ledger[|b.ledger|..], a)
  {
    RunAppendsOnly(b, calls);
    if calls == [] {
      assert Run(b, calls).bank.ledger[|b.ledger|..] == [];
    } else {
      var init := calls[..|calls| - 1];
      var prev := Run(b, init);
      var last := calls[|calls| - 1];
      RunReconciles(b, init, a);
      RunAppendsOnly(b, init);
      ExecuteReconciles(prev.bank, last.req, last.now, a);
      var fin := Execute(prev.bank, last.req, last.now).bank.ledger;
      NetOfExtension(|b.ledger|, prev.bank.ledger, fin, a);
    }
  }

  /** The net effect since position `n` of a ledger that extends `prev` is
      the net effect since `n` in `prev` plus that of the extension. */
  lemma NetOfExtension(n: nat, prev: seq<Record>, fin: seq<Record>, a: string)
    requires n <= |prev| <= |fin| && fin[..|prev|] == prev
    ensures Net(fin[n..], a) == Net(prev[n..], a) + Net(fin[|prev|..], a)
  {
    assert fin[n..] == prev[n..] + fin[|prev|..];
    NetAppend(prev[n..], fin[|prev|..], a);
  }

  predicate NonNegative(m: map<string, int>) {
    forall a :: a in m ==> m[a] >= 0
  }

  predicate AmountNotNegative(c: Call) {
    c.req.amount.None? || c.req.amount.value >= 0
  }

  /** Non-negativity holds for every reachable state only when no request
      carries a negative amount: the handler does not reject them. */
  lemma {:induction false} RunKeepsBalancesNonNegative(b: Bank, calls: seq<Call>)
    requires NonNegative(b.balances)
    requires forall i :: 0 <= i < |calls| ==> AmountNotNegative(calls[i])
    ensures NonNegative(Run(b, calls).bank.balances)
  {
    if calls != [] {
      var init := calls[..|calls| - 1];
      var prev := Run(b, init);
      var last := calls[|calls| - 1];
      RunKeepsBalancesNonNegative(b, init);
      assert AmountNotNegative(last);
      var r := Execute(prev.bank, last.req, last.now);
      if r.outcome.Transferred? {
        var o := CheckFields(last.req).value;
        assert r == Commit(prev.bank, o, last.now);
        forall a | a in r.bank.balances ensures r.bank.balances[a] >= 0 {
          assert a in prev.bank.balances;
        }
      }
    }
  }

  /** A negative amount passes every check and overdraws the receiver. */
  lemma NegativeAmountOverdrawsReceiver()
    ensures var b := Bank(map["A" := 0, "B" := 5], []);
            var req := Request(Some(-10), Some("UPI"), Some("A"), Some("B"), None, Some("P2P"), None);
            var r := Execute(b, req, 0);
            r.outcome == Transferred("A", "B", -10)
            && r.bank.balances == map["A" := 10, "B" := -5]
  {
  }

  /** Transfers between two accounts A (1000) and B (200): 300 from A to B
      succeeds, 800 more then fails for insufficient funds, and a transfer of
      50 from A to itself is accepted, leaves A's balance alone and is still
      recorded. */
  lemma WorkedExample()
    ensures var b0 := Bank(map["A" := 1000, "B" := 200], []);
            var s1 := Execute(b0, Request(Some(300), Some("UPI"), Some("A"), Some("B"), None, Some("P2P"), None), 1);
            var s2 := Execute(s1.bank, Request(Some(800), Some("UPI"), Some("A"), Some("B"), None, Some("P2P"), None), 2);
            var s3 := Execute(s2.bank, Request(Some(50), Some("UPI"), Some("A"), Some("A"), None, Some("P2P"), None), 3);
            && s1.outcome == Transferred("A", "B", 300)
            && s1.bank.balances == map["A" := 700, "B" := 500]
            && s2.outcome == Aborted(InsufficientFunds) && s2.bank == s1.bank
            && s3.outcome == Transferred("A", "A", 50)
            && s3.bank.balances == s1.bank.balances
            && |s3.bank.ledger| == 2
  {
  }
}

=== FILE: translation.dfy ===
/** The translation helpers around the IndicTrans2 models: input
    normalisation and truncation, output clean-up, the choice between a
    direct and an English-pivot translation, the batch loop, and the
    dictionary-based fallback translator. The neural models themselves are a
    parameter. */
module Translation {
  import opened Wrappers
  import opened Text

  const English := "eng_Latn"

  /** Longest text handed to a model before "..." is appended. */
  const MaxChars: nat := 1000

  /** The language prefixes a model may echo, in the order they are removed. */
  const LanguagePrefixes: seq<string> := ["hin_Deva:", "mar_Deva:", "guj_Gujr:", "eng_Latn:"]

  datatype Direction = EnIndic | IndicEn | Pivot

  /** English to an Indic language, an Indic language to English, and
      everything else through English. */
  function DirectionOf(src: string, tgt: string): (d: Direction)
    ensures d == EnIndic <==> src == English && tgt != English
    ensures d == IndicEn <==> src != English && tgt == English
    ensures d == Pivot <==> (src == English <==> tgt == English)
  {
    if src == English && tgt != English then EnIndic
    else if src != English && tgt == English then IndicEn
    else Pivot
  }

  /** A cut of normalised text followed by "..." is still normalised. */
  lemma TruncatedNormalised(s: string, n: nat)
    requires IsNormalised(s) && n <= |s|
    ensures IsNormalised(s[..n] + "...")
  {
    var r := s[..n] + "...";
    assert !IsPySpace('.');
    assert forall i :: n <= i < |r| ==> r[i] == '.';
    forall i | 0 <= i < n && IsPySpace(r[i])
      ensures r[i] == ' ' && 0 < i < |r| - 1 && !IsPySpace(r[i + 1])
    {
      assert r[i] == s[i];
      if i + 1 < n {
        assert r[i + 1] == s[i + 1];
      } else {
        assert r[i + 1] == '.';
      }
    }
  }

  /** `_preprocess_text`: white space collapsed, and text longer than 1000
      characters cut to 1000 followed by "...". */
  function Preprocess(text: string): (r: string)
    ensures IsNormalised(r)
    ensures |r| <= MaxChars + 3
    ensures |Normalise(text)| <= MaxChars ==> r == Normalise(text)
    ensures |Normalise(text)| > MaxChars ==> r == Normalise(text)[..MaxChars] + "..."
  {
    var t := Normalise(text);
    NormalisedIsStripped(t);
    if |Strip(PyWhitespace, t)| < 2 then t
    else if |t| > MaxChars then
      TruncatedNormalised(t, MaxChars);
      t[..MaxChars] + "..."
    else t
  }

  /** Removes each listed prefix the text starts with at that point, in list
      order, stripping white space after each removal. */
  function StripPrefixes(text: string, prefixes: seq<string>): (r: string)
    ensures |r| <= |text|
    ensures (forall i :: 0 <= i < |prefixes| ==> !StartsWith(text, prefixes[i])) ==> r == text
    decreases |prefixes|
  {
    if prefixes == [] then text
    else
      StripPrefixes(DropPrefix(text, prefixes[0]), prefixes[1..])
  }

  /** One step of `StripPrefixes`: the prefix and the white space after it
      removed, when the text starts with it. */
  function DropPrefix(text: string, p: string): (r: string)
    ensures |r| <= |text|
    ensures !StartsWith(text, p) ==> r == text
    ensures StartsWith(text, p) && p != [] ==> |r| < |text|
    ensures StartsWith(text, p) ==>
      IsStripped(PyWhitespace, r) && Visible(r) == Visible(text[|p|..])
  {
    if StartsWith(text, p) then
      VisibleOfStrip(text[|p|..]);
      Strip(PyWhitespace, text[|p|..])
    else text
  }

  /** Prefixes that the text does not start with are passed over. */
  lemma {:induction false} SkipUnmatched(text: string, ps: seq<string>, k: nat)
    requires k <= |ps|
    requires forall j :: 0 <= j < k ==> !StartsWith(text, ps[j])
    ensures StripPrefixes(text, ps) == StripPrefixes(text, ps[k..])
    decreases k
  {
    if k == 0 {
      assert ps[k..] == ps;
    } else {
      assert DropPrefix(text, ps[0]) == text;
      SkipUnmatched(text, ps[1..], k - 1);
      assert ps[1..][k - 1..] == ps[k..];
    }
  }

  /** The four language prefixes begin with four different letters. */
  lemma PrefixesExclusive(i: nat, j: nat, x: string)
    requires i < |LanguagePrefixes| && j < |LanguagePrefixes| && i != j
    ensures !StartsWith(LanguagePrefixes[i] + x, LanguagePrefixes[j])
  {
    var t := LanguagePrefixes[i] + x;
    assert t[0] == LanguagePrefixes[i][0];
  }

  /** A text that starts with one of the language prefixes loses exactly
      that prefix and the white space around what follows; only the
      prefixes later in the list are then still looked for. */
  lemma PrefixRemovedInOrder(i: nat, x: string)
    requires i < |LanguagePrefixes|
    ensures StripPrefixes(LanguagePrefixes[i] + x, LanguagePrefixes) ==
      StripPrefixes(Strip(PyWhitespace, x), LanguagePrefixes[i + 1..])
  {
    var ps := LanguagePrefixes;
    var p := ps[i];
    var t := p + x;
    forall j | 0 <= j < i ensures !StartsWith(t, ps[j]) {
      PrefixesExclusive(i, j, x);
    }
    SkipUnmatched(t, ps, i);
    assert t[..|p|] == p;
    assert t[|p|..] == x;
    assert DropPrefix(t, ps[i..][0]) == Strip(PyWhitespace, x);
    assert ps[i..][1..] == ps[i + 1..];
  }

  /** Model output that echoes a language prefix loses it: what is left is
      the rest of the output, normalised, when the rest does not itself
      start with a later prefix. */
  lemma PostprocessRemovesPrefix(i: nat, x: string)
    requires i < |LanguagePrefixes|
    requires forall j :: i < j < |LanguagePrefixes| ==>
      !StartsWith(Strip(PyWhitespace, x), LanguagePrefixes[j])
    ensures Postprocess(LanguagePrefixes[i] + x) == Normalise(Strip(PyWhitespace, x))
  {
    PrefixRemovedInOrder(i, x);
    NoLaterPrefix(i, Strip(PyWhitespace, x));
  }

  /** Text that starts with none of the prefixes after the i-th is left
      alone by them. */
  lemma NoLaterPrefix(i: nat, y: string)
    requires i < |LanguagePrefixes|
    requires forall j :: i < j < |LanguagePrefixes| ==> !StartsWith(y, LanguagePrefixes[j])
    ensures StripPrefixes(y, LanguagePrefixes[i + 1..]) == y
  {
    var rest := LanguagePrefixes[i + 1..];
    forall j | 0 <= j < |rest| ensures !StartsWith(y, rest[j]) {
      assert rest[j] == LanguagePrefixes[i + 1 + j];
    }
  }

  /** `_postprocess_text`. */
  function Postprocess(text: string): (r: string)
    ensures IsNormalised(r)
    ensures (forall i :: 0 <= i < |LanguagePrefixes| ==> !StartsWith(text, LanguagePrefixes[i])) ==>
      r == Normalise(text)
  {
    Normalise(StripPrefixes(text, LanguagePrefixes))
  }

  /** A neural model: the decoded output for a direction and an input, or
      `None` when loading or generating raises. */
  type Generator = (Direction, string) -> Option<string>

  /** `_direct_translate`: the input is tagged with the Indic side's
      language code; a failure gives back the text. */
  function DirectTranslate(text: string, src: string, tgt: string, d: Direction, gen: Generator): (r: string)
    ensures IsNormalised(text) ==> IsNormalised(r)
    ensures gen(d, (if d == IndicEn then src else tgt) + ": " + text).None? ==> r == text
    ensures gen(d, (if d == IndicEn then src else tgt) + ": " + text).Some? ==> IsNormalised(r)
    ensures gen(d, (if d == IndicEn then src else tgt) + ": " + text).Some? ==>
      r == Postprocess(gen(d, (if d == IndicEn then src else tgt) + ": " + text).value)
  {
    var input := (if d == IndicEn then src else tgt) + ": " + text;
    match gen(d, input)
    case None => text
    case Some(out) => Postprocess(out)
  }

  /** `_pivot_translate`: to English, then from English. */
  function PivotTranslate(text: string, src: string, tgt: string, gen: Generator): (r: string)
    ensures IsNormalised(text) ==> IsNormalised(r)
  {
    DirectTranslate(DirectTranslate(text, src, English, IndicEn, gen), English, tgt, EnIndic, gen)
  }

  /** `translate`. */
  function Translate(text: string, src: string, tgt: string, gen: Generator): (r: string)
    ensures src == tgt ==> r == text
    // Whatever the models do, a translation between different languages is
    // normalised text.
    ensures src != tgt ==> IsNormalised(r)
  {
    if src == tgt then text
    else
      var t := Preprocess(text);
      if Strip(PyWhitespace, t) == [] then t
      else Dispatch(t, src, tgt, gen)
  }

  /** The model path `translate` takes for a pair of different languages:
      through English when neither side is English, else direct. */
  function Dispatch(t: string, src: string, tgt: string, gen: Generator): (r: string)
    ensures IsNormalised(t) ==> IsNormalised(r)
  {
    match DirectionOf(src, tgt)
    case Pivot => PivotTranslate(t, src, tgt, gen)
    case d => DirectTranslate(t, src, tgt, d, gen)
  }

  /** A model call that fails leaves the text as it was, on either path. */
  lemma FailingModelsKeepText(t: string, src: string, tgt: string, gen: Generator)
    requires forall d, s :: gen(d, s).None?
    ensures forall d :: DirectTranslate(t, src, tgt, d, gen) == t
    ensures PivotTranslate(t, src, tgt, gen) == t
    ensures Dispatch(t, src, tgt, gen) == t
  {
    forall d ensures DirectTranslate(t, src, tgt, d, gen) == t {
      assert gen(d, (if d == IndicEn then src else tgt) + ": " + t).None?;
    }
    assert gen(IndicEn, src + ": " + t).None?;
    assert gen(EnIndic, tgt + ": " + t).None?;
  }

  /** With every model call failing, a translation between different
      languages is the preprocessed input. */
  lemma FailingModelsGivePreprocessed(text: string, src: string, tgt: string, gen: Generator)
    requires forall d, s :: gen(d, s).None?
    requires src != tgt
    ensures Translate(text, src, tgt, gen) == Preprocess(text)
  {
    FailingModelsKeepText(Preprocess(text), src, tgt, gen);
  }

  /** One result per text, in order. */
  method MapTexts(texts: seq<string>, f: string -> string) returns (out: seq<string>)
    ensures |out| == |texts|
    ensures forall i :: 0 <= i < |texts| ==> out[i] == f(texts[i])
  {
    out := [];
    for i := 0 to |texts|
      invariant |out| == i
      invariant forall k :: 0 <= k < i ==> out[k] == f(texts[k])
    {
      out := out + [f(texts[i])];
    }
  }

  /** `batch_translate`: one translation per text, in order. */
  method BatchTranslate(texts: seq<string>, src: string, tgt: string, gen: Generator) returns (out: seq<string>)
    ensures |out| == |texts|
    ensures forall i :: 0 <= i < |texts| ==> out[i] == Translate(texts[i], src, tgt, gen)
  {
    out := MapTexts(texts, t => Translate(t, src, tgt, gen));
  }

  // ---- The dictionary fallback ----

  /** A Python dict literal: its entries in insertion order. */
  type Dictionary = seq<(string, string)>

  const EnglishHindi: Dictionary := [
    ("balance", "बैलेंस"),
    ("account", "खाता"),
    ("transaction", "लेनदेन"),
    ("deposit", "जमा"),
    ("withdrawal", "निकासी"),
    ("loan", "ऋण"),
    ("bank", "बैंक"),
    ("money", "पैसा"),
    ("transfer", "स्थानांतरण"),
    ("payment", "भुगतान"),
    ("credit", "क्रेडिट"),
    ("debit", "डेबिट"),
    ("hello", "नमस्ते"),
    ("thank you", "धन्यवाद"),
    ("help", "मदद"),
    ("yes", "हाँ"),
    ("no", "नहीं")
  ]

  const EnglishMarathi: Dictionary := [
    ("balance", "शिल्लक"),
    ("account", "खाते"),
    ("transaction", "व्यवहार"),
    ("deposit", "जमा"),
    ("withdrawal", "काढणे"),
    ("loan", "कर्ज"),
    ("bank", "बँक"),
    ("money", "पैसे"),
    ("transfer", "हस्तांतरण"),
    ("payment", "पेमेंट"),
    ("credit", "क्रेडिट"),
    ("debit", "डेबिट"),
    ("hello", "नमस्कार"),
    ("thank you", "धन्यवाद"),
    ("help", "मदत"),
    ("yes", "होय"),
    ("no", "नाही")
  ]

  const EnglishGujarati: Dictionary := [
    ("balance", "બેલેન્સ"),
    ("account", "ખાતું"),
    ("transaction", "વ્યવહાર"),
    ("deposit", "જમા"),
    ("withdrawal", "ઉપાડ"),
    ("loan", "લોન"),
    ("bank", "બેંક"),
    ("money", "પૈસા"),
    ("transfer", "ટ્રાન્સફર"),
    ("payment", "ચુકવણી"),
    ("credit", "ક્રેડિટ"),
    ("debit", "ડેબિટ"),
    ("hello", "નમસ્તે"),
    ("thank you", "આભાર"),
    ("help", "મદદ"),
    ("yes", "હા"),
    ("no", "ના")
  ]

  /** The IndicTrans code of a language, shortened; other codes unchanged. */
  function ShortCode(code: string): string {
    if code == "hin_Deva" then "hi"
    else if code == "mar_Deva" then "mr"
    else if code == "guj_Gujr" then "gu"
    else if code == "eng_Latn" then "en"
    else code
  }

  /** The dictionary for a language pair, if there is one. */
  function BankingTerms(src: string, tgt: string): Option<Dictionary> {
    if src == "en" && tgt == "hi" then Some(EnglishHindi)
    else if src == "en" && tgt == "mr" then Some(EnglishMarathi)
    else if src == "en" && tgt == "gu" then Some(EnglishGujarati)
    else None
  }

  /** Dictionary lookup: the first entry with the key. */
  function Lookup(d: Dictionary, key: string): (r: Option<string>)
    ensures r.None? <==> forall i :: 0 <= i < |d| ==> d[i].0 != key
    ensures r.Some? ==> exists i :: 0 <= i < |d| && d[i] == (key, r.value)
                                    && forall j :: 0 <= j < i ==> d[j].0 != key
  {
    if d == [] then None
    else if d[0].0 == key then Some(d[0].1)
    else
      var r := Lookup(d[1..], key);
      assert forall i :: 0 < i < |d| ==> d[i] == d[1..][i - 1];
      r
  }

  /** `{v: k for k, v in d.items()}`: entries swapped and, since a later
      entry overwrites an earlier one, listed last first. */
  function Invert(d: Dictionary): (r: Dictionary)
    ensures |r| == |d|
    ensures forall i :: 0 <= i < |d| ==> r[i] == (d[|d| - 1 - i].1, d[|d| - 1 - i].0)
  {
    seq(|d|, i requires 0 <= i < |d| => (d[|d| - 1 - i].1, d[|d| - 1 - i].0))
  }

  /** In the inverted dictionary a value finds the key of its last entry. */
  lemma InvertLastWins(d: Dictionary, v: string)
    ensures Lookup(Invert(d), v).Some? <==> exists i :: 0 <= i < |d| && d[i].1 == v
    ensures Lookup(Invert(d), v).Some? ==>
      exists i :: 0 <= i < |d| && d[i] == (Lookup(Invert(d), v).value, v)
                  && forall j :: i < j < |d| ==> d[j].1 != v
  {
    InvertFinds(d, v);
    if Lookup(Invert(d), v).Some? {
      InvertFindsLast(d, v);
    }
  }

  lemma InvertFinds(d: Dictionary, v: string)
    ensures Lookup(Invert(d), v).Some? <==> exists i :: 0 <= i < |d| && d[i].1 == v
  {
    var r := Invert(d);
    if exists i :: 0 <= i < |d| && d[i].1 == v {
      var i :| 0 <= i < |d| && d[i].1 == v;
      assert r[|d| - 1 - i].0 == v;
    }
    if Lookup(r, v).Some? {
      var k :| 0 <= k < |r| && r[k] == (v, Lookup(r, v).value) && forall j :: 0 <= j < k ==> r[j].0 != v;
      assert d[|d| - 1 - k].1 == v;
    }
  }

  lemma InvertFindsLast(d: Dictionary, v: string)
    requires Lookup(Invert(d), v).Some?
    ensures exists i :: 0 <= i < |d| && d[i] == (Lookup(Invert(d), v).value, v)
                && forall j :: i < j < |d| ==> d[j].1 != v
  {
    var r := Invert(d);
    var k :| 0 <= k < |r| && r[k] == (v, Lookup(r, v).value) && forall j :: 0 <= j < k ==> r[j].0 != v;
    var i := |d| - 1 - k;
    assert d[i] == (Lookup(r, v).value, v);
    forall j | i < j < |d| ensures d[j].1 != v {
      assert r[|d| - 1 - j] == (d[j].1, d[j].0);
    }
  }

  predicate DistinctValues(d: Dictionary) {
    forall i, j :: 0 <= i < j < |d| ==> d[i].1 != d[j].1
  }

  /** With distinct values, translating a word there and back returns it. */
  lemma InvertRoundTrip(d: Dictionary, key: string)
    requires DistinctValues(d)
    requires Lookup(d, key).Some?
    ensures Lookup(Invert(d), Lookup(d, key).value) == Some(key)
  {
    var v := Lookup(d, key).value;
    var i :| 0 <= i < |d| && d[i] == (key, v) && forall j :: 0 <= j < i ==> d[j].0 != key;
    InvertLastWins(d, v);
    var k :| 0 <= k < |d| && d[k] == (Lookup(Invert(d), v).value, v) && forall j :: k < j < |d| ==> d[j].1 != v;
    assert k == i;
  }

  /** No two entries of a table share a translation, so every table word
      survives a round trip through the reverse direction. */
  lemma TablesRoundTrip(tgt: string, key: string)
    requires BankingTerms("en", tgt).Some?
    requires Lookup(BankingTerms("en", tgt).value, key).Some?
    ensures var d := BankingTerms("en", tgt).value;
      Lookup(Invert(d), Lookup(d, key).value) == Some(key)
  {
    var d := BankingTerms("en", tgt).value;
    HindiDistinct();
    MarathiDistinct();
    GujaratiDistinct();
    InvertRoundTrip(d, key);
  }

  lemma HindiDistinct()
    ensures DistinctValues(EnglishHindi)
  {
    DistinctByEnds(EnglishHindi);
  }

  lemma MarathiDistinct()
    ensures DistinctValues(EnglishMarathi)
  {
    DistinctByEnds(EnglishMarathi);
  }

  lemma GujaratiDistinct()
    ensures DistinctValues(EnglishGujarati)
  {
    DistinctByEnds(EnglishGujarati);
  }

  /** The first and last character of a non-empty string. */
  function Ends(v: string): (char, char)
    requires v != []
  {
    (v[0], v[|v| - 1])
  }

  /** Values told apart by their first and last characters are distinct. */
  lemma DistinctByEnds(d: Dictionary)
    requires forall i :: 0 <= i < |d| ==> d[i].1 != []
    requires forall i, j :: 0 <= i < j < |d| ==> Ends(d[i].1) != Ends(d[j].1)
    ensures DistinctValues(d)
  {
  }

  /** The punctuation `word.strip('.,!?;:')` removes. */
  const Punctuation := OneOf({'.', ',', '!', '?', ';', ':'})

  /** Each word replaced by its translation when its unpunctuated form is a
      key, and kept as it is otherwise. */
  function TranslateWords(words: seq<string>, d: Dictionary): (r: seq<string>)
    ensures |r| == |words|
    ensures forall i :: 0 <= i < |words| ==>
      r[i] == Lookup(d, Strip(Punctuation, words[i])).GetOr(words[i])
  {
    if words == [] then []
    else
      var rest := TranslateWords(words[1..], d);
      var r := [Lookup(d, Strip(Punctuation, words[0])).GetOr(words[0])] + rest;
      TranslateWordsStep(words, w => Lookup(d, Strip(Punctuation, w)).GetOr(w), rest, r);
      r
  }

  /** The step of `TranslateWords`, for any word map `g`: the first word's
      image in front of the images of the others. */
  lemma TranslateWordsStep(words: seq<string>, g: string -> string, rest: seq<string>, r: seq<string>)
    requires words != []
    requires |rest| == |words| - 1
    requires forall i :: 0 <= i < |words| - 1 ==> rest[i] == g(words[1..][i])
    requires r == [g(words[0])] + rest
    ensures |r| == |words|
    ensures forall i :: 0 <= i < |words| ==> r[i] == g(words[i])
  {
    forall i | 0 < i < |words| ensures r[i] == g(words[i]) {
      assert r[i] == rest[i - 1];
      assert words[1..][i - 1] == words[i];
    }
  }

  /** `FallbackTranslator.translate`. */
  function FallbackTranslate(text: string, srcCode: string, tgtCode: string): (r: string)
    ensures var s := ShortCode(srcCode); var t := ShortCode(tgtCode);
      && (s == t ==> r == text)
      && (s != t && BankingTerms(s, t).None? && BankingTerms(t, s).None? ==> r == text)
      && (s != t && BankingTerms(s, t).Some? ==>
            r == Join(TranslateWords(Words(Lower(text)), BankingTerms(s, t).value), " "))
      && (s != t && BankingTerms(s, t).None? && BankingTerms(t, s).Some? ==>
            r == Join(TranslateWords(Words(Lower(text)), Invert(BankingTerms(t, s).value)), " "))
  {
    var s := ShortCode(srcCode);
    var t := ShortCode(tgtCode);
    if s == t then text
    else
      var dict :=
        if BankingTerms(s, t).Some? then BankingTerms(s, t)
        else if BankingTerms(t, s).Some? then Some(Invert(BankingTerms(t, s).value))
        else None;
      match dict
      case None => text
      case Some(d) => Join(TranslateWords(Words(Lower(text)), d), " ")
  }

  /** The key "thank you" holds a space, and a split word never does, so it
      never matches. */
  lemma ThankYouNeverMatches(word: string)
    requires IsWord(word)
    ensures Strip(Punctuation, word) != "thank you"
  {
    var r := Strip(Punctuation, word);
    StripIsInfix(Punctuation, word);
    NoSpaceInInfix(word, StripStart(Punctuation, word), r);
    if |r| == 9 {
      assert !IsPySpace(r[5]);
    }
  }

  /** Part of a word holds no white space either. */
  lemma NoSpaceInInfix(word: string, i: nat, r: string)
    requires IsWord(word)
    requires i + |r| <= |word| && r == word[i..i + |r|]
    ensures forall j :: 0 <= j < |r| ==> !IsPySpace(r[j])
  {
    forall j | 0 <= j < |r| ensures !IsPySpace(r[j]) {
      assert r[j] == word[i + j];
    }
  }
}

=== FILE: user_info.dfy ===
/** Request helpers: the client address behind proxies and the customer id
    of the session. */
module UserInfo {
  import opened Wrappers
  import opened Truthiness
  import opened Text

  /** The parts of a request the client-address lookup reads. */
  datatype AddressSource = AddressSource(
    forwardedFor: Option<string>,
    remoteAddress: Option<string>,
    ip: Option<string>)

  /** The text before the first comma, or all of it. */
  function FirstField(s: string): (f: string)
    ensures |f| <= |s| && f == s[..|f|]
    ensures !Contains(f, ",")
    ensures |f| == |s| || s[|f|] == ','
  {
    SplitHead(s, ",");
    Split(s, ",")[0]
  }

  /** The first entry of a non-empty `x-forwarded-for`, trimmed; otherwise the
      socket's remote address when truthy, and the request's `ip` after
      that. */
  function GetClientIP(req: AddressSource): (r: Option<string>)
    ensures Truthy(req.forwardedFor) ==>
      && r == Some(Strip(JsWhitespace, FirstField(req.forwardedFor.value)))
      && !Contains(r.value, ",")
      && IsStripped(JsWhitespace, r.value)
    ensures !Truthy(req.forwardedFor) ==>
      r == (if Truthy(req.remoteAddress) then req.remoteAddress else req.ip)
  {
    if Truthy(req.forwardedFor) then
      var f := FirstField(req.forwardedFor.value);
      StripKeepsOut(JsWhitespace, f, ",");
      Some(Strip(JsWhitespace, f))
    else if Truthy(req.remoteAddress) then req.remoteAddress
    else req.ip
  }

  /** What the session store's `getUser` returns for a session id. */
  datatype SessionUser = NoSuchSession | SessionUser(customerId: Option<string>)

  /** The parts of a request the customer-id lookup reads: the parsed cookies
      (absent when no cookie parser ran) and the body's `customer_ID`. */
  datatype CustomerSource = CustomerSource(
    cookies: Option<map<string, string>>,
    bodyCustomerId: Option<string>)

  /** The value `getCustomerID` returns, or that it throws. */
  datatype CustomerId = Returns(id: Option<string>) | Throws

  predicate HasSessionCookie(req: CustomerSource) {
    req.cookies.Some? && "sessionID" in req.cookies.value && req.cookies.value["sessionID"] != ""
  }

  /** Logging the cookie names throws without cookies; a truthy session id is
      looked up in the session store, which throws when it has no user; a
      body `customer_ID` without a session reaches a misspelt `req.bod` and
      throws; otherwise the result is null. */
  function GetCustomerID(req: CustomerSource, getUser: string -> SessionUser): (r: CustomerId)
    ensures req.cookies.None? ==> r == Throws
    ensures HasSessionCookie(req) ==>
      r == (match getUser(req.cookies.value["sessionID"])
            case NoSuchSession => Throws
            case SessionUser(id) => Returns(id))
    ensures req.cookies.Some? && !HasSessionCookie(req) ==>
      r == (if Truthy(req.bodyCustomerId) then Throws else Returns(None))
    // An id is only ever returned from the session store, never from the body.
    ensures r.Returns? && r.id.Some? ==> HasSessionCookie(req)
  {
    if req.cookies.None? then Throws
    else if HasSessionCookie(req) then
      match getUser(req.cookies.value["sessionID"])
      case NoSuchSession => Throws
      case SessionUser(id) => Returns(id)
    else if Truthy(req.bodyCustomerId) then Throws
    else Returns(None)
  }
}

=== FILE: wrappers.dfy ===
/** Failure-carrying wrappers shared by every module of the model. */
module Wrappers {

  /** A value that may be absent: JavaScript's undefined/null, Python's None. */
  datatype Option<+T> = None | Some(value: T) {

    /** The wrapped value, or `default` when absent. */
    function GetOr(default: T): T {
      match this
      case Some(v) => v
      case None => default
    }
  }

  /** Either a computed value or an error description. */
  datatype Result<+R, +E> = Success(value: R) | Failure(error: E)
}

/** Truthiness of the string-valued fields that request handlers test with
    `!x` (JavaScript) or `not x` (Python): both treat a missing value and the
    empty string as false, and every other string as true. */
module Truthiness {
  import opened Wrappers

  predicate Truthy(v: Option<string>) {
    v.Some? && v.value != ""
  }

  /** A number is falsy when it is missing or zero (NaN is not modelled). */
  predicate TruthyNumber(v: Option<int>) {
    v.Some? && v.value != 0
  }
}
